=== FILE: README.md ===
# Academic publication search: a Dafny model

This project models the publication search of an academic research
assistant, together with the small pure helpers around it.

**The search** takes a free-text query and an academic domain and works in five steps:

1. It normalises the query. The query is lower-cased and stripped. The domain name is appended when the domain's keyword table says the query lacks it. Then the abbreviations `ai` and `ml` are expanded.
2. It asks three sources in a fixed order: arXiv (through its API, narrowed to the domain's categories), Google Scholar and PubMed (both scraped).
3. It scores every result against the *original* query and the domain.
4. It drops the results that score zero and sorts the rest, highest score first, with a stable sort.
5. It returns the first `limit` results.

arXiv failures are caught inside the arXiv adapter. The two scrapers have no handler of their own, so a failure in either one empties the whole search.

**The helpers** modelled alongside it:

- the Levenshtein table and the similarity ratio used by the normaliser;
- the relevance band and date shown for each result on the search page;
- the dictionary-driven writing-style suggestions: conciseness, academic vocabulary and synonyms;
- grammar-issue shaping and the passive-voice filter;
- the document chunker and the bounded answer-collection loop of the research explorer;
- the export file naming.

Each component is a module:

| module | file | models |
|---|---|---|
| `Strings` | strings.dfy | the Python `str` operations the code relies on: `lower`, `strip`, `split()`, `split('\n')`, `join`, `in`, `replace`, and slicing with Python's index rules |
| `Levenshtein` | levenshtein.dfy | the distance, as a recursive reference definition and as the row-by-row table method, and the similarity |
| `DomainNames`, `QueryNormalizer` | query_normalizer.dfy | `_preprocess_query` |
| `Publications`, `Arxiv`, `Scrapers` | publications.dfy | result records, the arXiv request and reply, the two scrapers |
| `Ranking` | ranking.dfy | `_filter_and_rank_results` |
| `Search`, `PublicationView` | search.dfy | `search_publications`, and the publication page of `main.py` |
| `WritingStyle` | writing_style.dfy | the writing-style analyser's dictionary logic |
| `ResearchExplore`, `ExportNames` | research_explore.dfy | the research explorer's chunking and collection loop, and the export file names |

Everything outside the program is a parameter. This covers the HTTP replies, the parsed pages, the age in days of a date, the language model's replies, the NLTK tokens and sentences, the WordNet lemma names and the LanguageTool matches. An exception that the code lets escape is modelled as `None`.

The model follows the code where a tidier reading would differ:

- The domain name is appended when *some* keyword is uncovered, not only when all of them are.
- The `ai`/`ml` expansion replaces every substring occurrence, including inside other words ("ai training" turns the `ai` of "training" into the expansion as well), as soon as one of the two is a whole token.
- Normalising twice is not idempotent in general. The proved property is limited to a first pass that appended the domain name, or a query that already held it.
- A date in the future earns a recency bonus above 1.
- A malformed block anywhere on a scraped page, even past the limit, empties the whole search, because shaping runs before the truncation.

## Model

| member | source | states |
|---|---|---|
| Strings.Lower | modules/publication_search.py:53 | lower-casing keeps the length, maps each character, yields lower-case text and leaves lower-case text unchanged |
| Strings.Strip | modules/publication_search.py:53 | the stripped text is no longer than the input, and starts and ends with a non-whitespace character |
| Strings.StripSpec | modules/publication_search.py:53 | `strip` removes exactly the whitespace run at each end: the input is an all-whitespace prefix, the result, and an all-whitespace suffix |
| Strings.StripKeepsLowerCase | modules/publication_search.py:53 | stripping lower-case text leaves it lower-case |
| Strings.Words | modules/publication_search.py:69 | `split()` yields only non-empty tokens without whitespace |
| Strings.WordsOfToken | modules/publication_search.py:69 | a single token splits into itself |
| Strings.WordsJoinRoundTrip | modules/publication_search.py:69 | tokens joined with single blanks split back into exactly those tokens |
| Strings.ReplaceAll | modules/publication_search.py:80-81 | `replace` leaves a text without the pattern unchanged, and keeps lower-case text lower-case when the replacement is lower-case |
| Strings.ReplaceHead | modules/publication_search.py:80-81 | the result starts with the replacement when the text starts with the pattern, and with the text's own first character otherwise |
| Strings.ReplaceRemovesPair | modules/publication_search.py:80-81 | replacing a two-character pattern by a text that neither holds it nor forms it with its neighbours leaves no occurrence of the pattern anywhere |
| Strings.ReplaceKeepsPairFree | modules/publication_search.py:80-81 | replacing any pattern keeps a text free of a character pair when the replacement holds none and cannot form one at its edges |
| Strings.ReplaceAtFirst | modules/publication_search.py:80-81 | at the first occurrence of the pattern, at index k, the result is the text before k unchanged, then the replacement, then the replacement of what follows the occurrence |
| Strings.ReplaceStep | modules/publication_search.py:80-81 | for a text `x + pat + y` with no occurrence starting inside `x`, the result is exactly `x + rep` followed by the replacement of `y` |
| Strings.ReplaceKeepsOccurrence | modules/publication_search.py:80-81 | an occurrence of another text that no occurrence of the pattern overlaps survives the replacement |
| Strings.SplitOn | research_explore.py:44 | `split('\n')` gives one more piece than there are newlines, and no piece holds a newline |
| Strings.JoinSplit | research_explore.py:44 | joining the pieces of a split with the separator gives the text back |
| Strings.SplitJoin | research_explore.py:44 | splitting a join of separator-free pieces gives the pieces back |
| Strings.PyTake | modules/publication_search.py:44 | `xs[:n]` is a prefix of length min(n, len) for n >= 0, and drops the last -n items for negative n |
| Strings.PySlice | modules/writing_style_analyzer.py:117 | `s[a:b]` is never longer than `s`, and is exactly the slice when 0 <= a <= b <= len |
| Levenshtein.LevenshteinDistance | modules/publication_search.py:94-112 | the row-by-row table, after swapping so the longer string comes first, returns exactly the recursive edit distance |
| Levenshtein.NextRow | modules/publication_search.py:103-110 | one pass of the outer loop turns the distances of `s1[..i]` to every prefix of `s2` into those of `s1[..i+1]` |
| Levenshtein.DistanceSymmetric | modules/publication_search.py:96-97 | the distance does not depend on argument order, so the swap changes nothing |
| Levenshtein.DistanceToEmpty | modules/publication_search.py:99-100 | the distance to the empty string is the other string's length |
| Levenshtein.DistanceZeroIffEqual | modules/publication_search.py:94-112 | the distance is zero exactly for equal strings |
| Levenshtein.DistanceAtMostMax | modules/publication_search.py:94-112 | the distance never exceeds the longer length |
| Levenshtein.Similarity | modules/publication_search.py:85-92 | the similarity lies in [0, 1], is 0 when either string is empty, and is 1 on equal non-empty strings |
| Levenshtein.SimilaritySymmetric | modules/publication_search.py:85-92 | the similarity does not depend on argument order |
| Levenshtein.SimilarIffAboveThreshold | modules/publication_search.py:71 | similarity > 0.8 holds exactly when 5 times the distance is below the longer length; the boundary case is not similar |
| QueryNormalizer.ExpandAbbreviations | modules/publication_search.py:79-81 | the expansion keeps lower-case text lower-case |
| QueryNormalizer.ExpansionRemovesAbbreviations | modules/publication_search.py:79-81 | when `ai` or `ml` is a whole token, no `ai` and no `ml` is left anywhere in the query, inside words included; otherwise the query is unchanged |
| QueryNormalizer.ExpandBoth | modules/publication_search.py:79-81 | a query `"ai" + u + "ml" + t` whose `ai` is its first token and which holds no other `ai` or `ml` becomes `"artificial intelligence" + u + "machine learning" + t`: the `ai` pass runs first and the rest is kept |
| QueryNormalizer.ExpandLeadingAi | modules/publication_search.py:79-81 | a query whose only abbreviation is a leading `ai` token becomes `"artificial intelligence"` followed by the rest of the query |
| QueryNormalizer.AiPass | modules/publication_search.py:80 | the `ai` pass on `"ai" + rest`, with no `ai` in `rest`, gives `"artificial intelligence" + rest` |
| QueryNormalizer.MlPass | modules/publication_search.py:81 | the `ml` pass on `x + "ml" + t`, with no `ml` in `x` or `t`, gives `x + "machine learning" + t` |
| QueryNormalizer.WithDomain | modules/publication_search.py:73-75 | the domain rule only ever extends the query, and keeps it lower-case |
| QueryNormalizer.Preprocess | modules/publication_search.py:50-83 | the normalised query is lower-case |
| QueryNormalizer.KeywordLoopBreaks | modules/publication_search.py:69-76 | the keyword loop as a recursive definition, without a contract of its own; KeywordLoopSpec states what it decides |
| QueryNormalizer.KeywordLoopSpec | modules/publication_search.py:69-76 | the keyword loop reaches its append point exactly when some keyword is neither inside a query term nor more than 0.8-similar to one |
| QueryNormalizer.PreprocessSpec | modules/publication_search.py:53-81 | the whole rule without the loop: lower-case and strip; append one space and the lower-cased domain exactly when the domain is in the table, its name is not in the query and some keyword is uncovered; then expand |
| QueryNormalizer.UnmappedDomainNeverAppends | modules/publication_search.py:67 | a domain outside the keyword table (such as "Physics") never gets its name appended |
| QueryNormalizer.PresentDomainNeverAppends | modules/publication_search.py:74 | a query already holding the lower-cased domain name gets nothing appended |
| QueryNormalizer.EmptyQueryAppends | modules/publication_search.py:67-75 | the empty query covers no keyword, so the domain rule appends a space and the lower-cased domain name |
| QueryNormalizer.BlankQueryGetsLeadingSpace | modules/publication_search.py:53-75 | a blank query with a mapped domain becomes a single space followed by the domain name |
| QueryNormalizer.DomainNameRewriteSafe | modules/publication_search.py:56-64 | every lower-cased domain name of the keyword table is untouched by the abbreviation expansion wherever it occurs |
| QueryNormalizer.ExpansionKeepsSafe | modules/publication_search.py:79-81 | the expansion keeps an occurrence of such a safe name |
| QueryNormalizer.WithDomainHoldsName | modules/publication_search.py:73-75 | after the domain rule the query holds the domain name when the rule fired or the name was already there |
| QueryNormalizer.NormalisedHoldsDomain | modules/publication_search.py:50-83 | the same holds after the whole normalisation |
| QueryNormalizer.SafeSurvivesLowerStrip | modules/publication_search.py:53 | lower-casing and stripping again keeps the name |
| QueryNormalizer.RenormalisingDoesNotAppendAgain | modules/publication_search.py:67-76 | normalising again, with the same domain, a query whose first pass appended the name (or already held it) appends nothing the second time |
| Arxiv.QueryFor | modules/publication_search.py:194-197 | the search query always starts with `all:(q)` |
| Arxiv.Params | modules/publication_search.py:199-205 | the request asks for `limit` results from position 0 with the domain's search query |
| Arxiv.NoMappedAll | modules/publication_search.py:174-195 | no mapped domain has the list `["all"]`, so a mapped domain always gets a category clause |
| Arxiv.UnmappedQueryIsPlain | modules/publication_search.py:191-197 | an unmapped domain searches with exactly `all:(q)` |
| Arxiv.ClauseNamesCategory | modules/publication_search.py:195-197 | category i of a narrowed query appears in it as `cat:c` |
| Arxiv.ClauseNamesCategories | modules/publication_search.py:195-197 | every category of a narrowed query appears in it as `cat:c` |
| Arxiv.MappedQueryNamesCategories | modules/publication_search.py:174-197 | a mapped domain gives `all:(q) AND (cat:c1 OR ... OR cat:cn)` in table order, naming every category |
| Arxiv.SuggestionsAreMapped | modules/publication_search.py:286-302 | the 13 offered domain labels all have a category list |
| Arxiv.MappedAreSuggested | modules/publication_search.py:174-188 | every key of the category table is offered as a label |
| Arxiv.ShapeEntry | modules/publication_search.py:215-223 | an entry gives a record exactly when all its texts are present; the record is tagged arXiv, has a link and one author per author element |
| Arxiv.ShapeEntries | modules/publication_search.py:213-226 | a successful loop gives one record per entry, each tagged arXiv |
| Arxiv.ShapeEntriesSucceed | modules/publication_search.py:213-226 | the loop succeeds exactly when every entry is well formed |
| Arxiv.ShapeEntriesInOrder | modules/publication_search.py:213-226 | the i-th record of a successful loop is the one shaped from the i-th entry |
| Arxiv.SearchArxiv | modules/publication_search.py:170-232 | every arXiv result is tagged arXiv |
| Arxiv.FailedRequestGivesNothing | modules/publication_search.py:207-232 | a request that raised, a status other than 200, a body that does not parse as a feed, or a malformed entry anywhere in the feed gives no results |
| Arxiv.ArxivResultsFollowFeed | modules/publication_search.py:207-232 | a 200 reply whose entries are all well formed gives one result per entry in order; anything else gives nothing |
| Scrapers.ScholarUrl | modules/publication_search.py:236 | the Google Scholar address is the fixed 37-character base, the query unencoded, then the fixed 19-character parameters |
| Scrapers.PubmedUrl | modules/publication_search.py:262 | the PubMed address is the fixed 38-character base, the query unencoded, then `&size=200` |
| Scrapers.UrlsDetermineQuery | modules/publication_search.py:236-262 | two different queries never ask for the same page |
| Scrapers.ShapeBlock | modules/publication_search.py:243-257 | a block gives a record exactly when its link can be read; the record has one author entry, an empty summary and the source tag, and missing elements become "No title" (no link), "No authors" and "No date" |
| Scrapers.ShapeBlocks | modules/publication_search.py:243-257 | a successful loop gives one record per block, each with one author entry, an empty summary and the source tag |
| Scrapers.ShapeBlocksSucceed | modules/publication_search.py:243-257 | the loop succeeds exactly when every block can be shaped |
| Scrapers.ShapeBlocksInOrder | modules/publication_search.py:243-257 | the i-th record of a successful loop is the one shaped from the i-th block |
| Scrapers.Scrape | modules/publication_search.py:242-258 | every scraped record has one author entry, an empty summary and the source tag |
| Scrapers.ScrapeSpec | modules/publication_search.py:269-284 | a scrape succeeds exactly when the page was fetched and every block on it can be shaped; it then holds min(limit, blocks) records, those of the first blocks in order |
| Scrapers.SearchScholar | modules/publication_search.py:234-258 | every Google Scholar record carries the source "Google Scholar" |
| Scrapers.SearchPubmed | modules/publication_search.py:260-284 | every PubMed record carries the source "PubMed" |
| Scrapers.SearchScholarSpec | modules/publication_search.py:234-258 | the Scholar adapter succeeds exactly when the page at the query's Scholar address was fetched and all its blocks can be shaped; it then gives min(limit, blocks) records, the first blocks' in page order |
| Scrapers.SearchPubmedSpec | modules/publication_search.py:260-284 | the same for the PubMed adapter and the query's PubMed address |
| Scrapers.BadBlockPastLimitFails | modules/publication_search.py:269-284 | a block past the limit whose link cannot be read still makes the adapter fail |
| Ranking.TermPointsCount | modules/publication_search.py:126-137 | the scoring loops give each weight times the number of distinct terms found in the text, whatever the set's iteration order |
| Ranking.RecencyBonus | modules/publication_search.py:139-146 | the recency bonus is never negative, and is 0 when the date does not parse |
| Ranking.RecencyBonusShape | modules/publication_search.py:143 | the bonus is 1 for today, at most 1 for an age in [0, 365], 0 from 365 days on, and above 1 for a future date |
| Ranking.RecencyBonusMonotone | modules/publication_search.py:143 | an older paper never earns a larger bonus |
| Ranking.Score | modules/publication_search.py:117-146 | the score as a definition, without a contract of its own; ScoreFormula and ZeroScoreMeansNoEvidence state its value |
| Ranking.ScoreFormula | modules/publication_search.py:117-146 | score = 5 per query term in the title + 2 per query term in the summary + 3 per domain word in the title + 1 per domain word in the summary + the recency bonus of the first 10 characters of `published` |
| Ranking.ZeroScoreMeansNoEvidence | modules/publication_search.py:120-162 | a result is kept exactly when some query or domain term is inside its title or summary, or its date earns a bonus |
| Ranking.ToPublication | modules/publication_search.py:149-158 | the publication carries the caller's domain and the computed score |
| Ranking.Scored | modules/publication_search.py:120-158 | one publication per result, in order, each with its own score |
| Ranking.Insert | modules/publication_search.py:165 | inserting adds exactly one item: length, multiset and membership |
| Ranking.SortByScore | modules/publication_search.py:165 | the sort is a permutation |
| Ranking.InsertSorted | modules/publication_search.py:165 | inserting into a list sorted by descending score keeps it sorted |
| Ranking.SortSorted | modules/publication_search.py:165 | the sorted list is in non-increasing score order |
| Ranking.InsertStable | modules/publication_search.py:165 | insertion puts a new item before the items of equal score it passes |
| Ranking.SortStable | modules/publication_search.py:165 | among equal scores the sort keeps the input order |
| Ranking.Rank | modules/publication_search.py:114-168 | the ranking is never longer than its input |
| Ranking.RankSpec | modules/publication_search.py:114-168 | the ranking is sorted, is a permutation of the positively scored results, each with the caller's domain and its own score, and keeps input order among ties |
| Ranking.WithScoreOfPositive | modules/publication_search.py:161-162 | for a positive score, dropping the non-positive results keeps exactly the results of that score |
| Ranking.TiesFollowConcatenation | modules/publication_search.py:161-168 | ranking a concatenation lists, among equal scores, the first list's results before the second's |
| Search.GatheredFrom | modules/publication_search.py:36-41 | the gathered list exists exactly when neither scraper raised |
| Search.GatheredWithoutArxiv | modules/publication_search.py:36-41 | whenever arXiv gives no results, for whatever reason, the gathered list is Google Scholar's followed by PubMed's |
| Search.SearchPublications | modules/publication_search.py:19-48 | nothing when a scraper raised; otherwise the first `limit` publications of the ranking of the gathered results: a prefix of it, of length min(limit, ranked) for a limit >= 0 and with the last -limit dropped for a negative one |
| Search.ScraperFailureEmptiesSearch | modules/publication_search.py:31-48 | a failure in either scraper empties the whole search, whatever arXiv returned |
| Search.ArxivFailureIsolated | modules/publication_search.py:36-44 | whenever arXiv gives no results the search is exactly the first `limit` of the ranking of the scrapers' results |
| Search.EveryArxivFailureIsolated | modules/publication_search.py:207-232 | a request that raised, a non-200 status, an unparsable feed or a malformed entry each leave the search ranking the scrapers' results alone |
| Search.SearchResultsRanked | modules/publication_search.py:41-44 | the results are sorted by descending score, positive, in the caller's domain, and each is a gathered result scored against the original query |
| Search.TiesOrderedBySource | modules/publication_search.py:36-44 | among equal scores arXiv results come first, then Google Scholar's, then PubMed's, and the answer is the first `limit` of that ranking: a prefix of length min(limit, ranked) |
| PublicationView.BandOf | main.py:466-467 | a score above 4 is High, above 2 up to 4 Medium, otherwise Low |
| PublicationView.BandMonotone | main.py:467 | a higher score never gets a lower band |
| PublicationView.MissingScoreIsLow | main.py:466 | a publication without a score is Low |
| PublicationView.PublishedShown | main.py:490 | the date shown is the first (at most 10) characters of `published` |
| PublicationView.RenderRows | main.py:464-490 | one row per publication, numbered from 1, with its title, band and shortened date |
| PublicationView.BandsDescend | main.py:464-467 | down a list sorted by score the bands never rise |
| PublicationView.RenderSearch | main.py:449-495 | nothing runs without a click or with an empty query; a result list shows between 1 and 50 rows |
| PublicationView.RowsFollowRanking | main.py:455-495 | a search shows the warning exactly when the list is empty, and otherwise one row per ranked publication with bands that never rise |
| WritingStyle.Hint | modules/writing_style_analyzer.py:184 | the hint text has the phrase, the replacement and 18 fixed characters |
| WritingStyle.HintReads | modules/writing_style_analyzer.py:184 | the hint reads `Replace "`, the phrase, `" with "`, the replacement and a closing quote, each at its exact position |
| WritingStyle.HintsFor | modules/writing_style_analyzer.py:182-185 | the hints are a subsequence of the table's hints, in table order |
| WritingStyle.SuggestConciseness | modules/writing_style_analyzer.py:165-185 | the suggestions follow table order and number at most 4 |
| WritingStyle.HintsForMembership | modules/writing_style_analyzer.py:182-184 | with distinct hints, a phrase's hint is present exactly when the phrase occurs in the text |
| WritingStyle.WordyHintsDistinct | modules/writing_style_analyzer.py:176-184 | the four hints differ from one another |
| WritingStyle.ConcisenessSpec | modules/writing_style_analyzer.py:175-185 | the hint of a wordy phrase is suggested exactly when the phrase is a case-sensitive substring of the text |
| WritingStyle.NoPhraseNoHints | modules/writing_style_analyzer.py:182-185 | no occurring phrase gives no hint |
| WritingStyle.NoWordyPhraseNoSuggestion | modules/writing_style_analyzer.py:182-185 | a text with none of the four phrases gets no suggestion |
| WritingStyle.SynonymListsHaveFour | modules/writing_style_analyzer.py:36-45 | every list of the synonym table has four words |
| WritingStyle.SuggestVocabulary | modules/writing_style_analyzer.py:219-224 | at most one hint per token, each for a token whose lower-case form is a key, carrying that key's list |
| WritingStyle.VocabularyIsFilter | modules/writing_style_analyzer.py:219-224 | one hint per key token, in token order, keeping the token's own spelling |
| WritingStyle.MultiWordKeyNeverMatchesToken | modules/writing_style_analyzer.py:44 | the two-word key "look at" never matches a token without a blank |
| WritingStyle.Synonyms | modules/writing_style_analyzer.py:47-69 | a word outside the table gets distinct lemma names, each other than the word and without '_', exactly min(5, n) of them for n distinct qualifying names |
| WritingStyle.SynonymsIgnoreCase | modules/writing_style_analyzer.py:58-60 | a key spelled in any case returns that key's four-word list |
| WritingStyle.SynonymsOfLowered | modules/writing_style_analyzer.py:58 | looking up the lower-cased word gives the same answer |
| WritingStyle.SynonymsKeepAllWhenFew | modules/writing_style_analyzer.py:63-69 | when at most five names qualify, every qualifying name is kept |
| WritingStyle.ToIssue | modules/writing_style_analyzer.py:111-119 | an issue keeps the match's message, offset and length, reports `text[offset:offset+length]`, keeps the context and category, and offers exactly the first min(3, n) of the n replacements |
| WritingStyle.CheckGrammar | modules/writing_style_analyzer.py:103-126 | one issue per match; no issue when the tool is unavailable or its check raised |
| WritingStyle.GrammarIssuesFollowMatches | modules/writing_style_analyzer.py:110-120 | the i-th issue is the i-th match's, and a span inside the text reports exactly its characters |
| WritingStyle.DetectPassiveVoice | modules/writing_style_analyzer.py:138-144 | every flagged sentence holds the passive pattern |
| WritingStyle.HasPassive | modules/writing_style_analyzer.py:142 | the passive pattern as a definition, without a contract of its own; PassiveNeedsEd, PassivePhraseFlagged and PassiveIsSubsequence state what it accepts |
| WritingStyle.PassiveNeedsEd | modules/writing_style_analyzer.py:142 | a flagged sentence holds one of the seven auxiliaries and the letters "ed" |
| WritingStyle.PassivePhraseFlagged | modules/writing_style_analyzer.py:142 | an auxiliary at a word start, whitespace, and a word of three or more word characters ending in "ed" at a word end is flagged, whatever the word |
| WritingStyle.AdjectiveFlagged | modules/writing_style_analyzer.py:142 | the check is lexical: "It was red" is flagged as passive |
| WritingStyle.PassiveIsSubsequence | modules/writing_style_analyzer.py:138-144 | the flagged sentences are a subsequence of the sentences, and a sentence is flagged exactly when the pattern occurs in it |
| ResearchExplore.ChunksOf | research_explore.py:44 | at most one chunk per line |
| ResearchExplore.ChunksOfLines | research_explore.py:44 | lines without a newline give only non-empty, stripped, one-line chunks |
| ResearchExplore.SplitIntoChunks | research_explore.py:43-44 | every chunk is non-empty, stripped and one line, and there are at most 1 + (number of newlines) chunks |
| ResearchExplore.ChunksAreStrippedLines | research_explore.py:44 | the chunks are the stripped lines with the blank ones dropped, in order |
| ResearchExplore.ChunksOfChunks | research_explore.py:44 | chunking a list of chunks changes nothing |
| ResearchExplore.ChunksRoundTrip | research_explore.py:44 | chunks joined with newlines split back into the same chunks |
| ResearchExplore.ChunkingIdempotent | research_explore.py:44 | chunking the joined chunks of a document gives those chunks again |
| ResearchExplore.Prompt | research_explore.py:61 | the prompt starts with the query |
| ResearchExplore.CollectAnswers | research_explore.py:54-82 | the loop collects the stripped answer of each call, in chunk order, all from 200 replies, stopping at the end, at `max_results` answers (at least one), or at the first non-200 reply; a call that raises ends the function with the exception |
| ResearchExplore.StopFromIs | research_explore.py:56-80 | a position with every earlier call answered 200 that is the end, the limit or an unanswered call is where the loop stops |
| ResearchExplore.CollectionStops | research_explore.py:56-80 | the outcome is the answers before the stop point, or the exception of the call at the stop point |
| ResearchExplore.CollectionUnique | research_explore.py:56-80 | that description determines the outcome: the same answers, or the exception, for the same chunks and calls |
| ResearchExplore.StopsAtFirstFailure | research_explore.py:72-80 | a first non-200 reply for chunk k, before the limit, leaves exactly the stripped answers of the k calls before it |
| ResearchExplore.RaiseEscapes | research_explore.py:70-73 | a call that raises before the loop stopped makes the whole function raise, discarding the answers collected so far |
| ExportNames.SafeFilename | modules/export_handler.py:25-28 | the safe name holds only letters, digits, blanks and underscores and never ends with a blank; it is a prefix of the topic's allowed characters, and what follows it there is whitespace, so it is that filter with only the trailing blanks dropped |
| ExportNames.SafeKeepsSafeName | modules/export_handler.py:25-28 | a name of allowed characters that does not end in a blank is its own safe name |
| ExportNames.SafeIsSubsequence | modules/export_handler.py:25-28 | the safe name is a subsequence of the topic |
| ExportNames.SafeIdempotent | modules/export_handler.py:25-28 | sanitising a safe name changes nothing |
| ExportNames.PathJoin | modules/export_handler.py:21 | a joined path ends with its last component |
| ExportNames.ExportPathsShareDirectory | modules/export_handler.py:21-46 | both files are `<safe>_draft.docx` and `<safe>_draft.pdf` in the same exports directory |
| ExportNames.BlankTopicName | modules/export_handler.py:25-31 | a topic without allowed characters other than blanks gives the file name `_draft.docx` |

## Left out

- HTTP requests, Atom/XML parsing and HTML parsing. The arXiv reply, the two fetched pages and the language-model replies are parameters of the model, already parsed into records.
- The query is not URL-encoded in the scraper addresses. The code does not encode it either; the address is modelled as the plain concatenation.
- The arXiv request's base address and the scrapers' User-Agent header are left out. They do not affect any result.
- The clock and `strptime`. The age in days of the first ten characters of `published` is the parameter `daysOld`, with `None` when the text does not parse as `%Y-%m-%d`.
- Floating point. Similarity, scores and the recency bonus are exact reals, so rounding at the 0.8 threshold and in the score sums is not modelled.
- Strings.Lower: Unicode lower-casing is modelled on ASCII letters only. `str.isalnum` and the regular expression's `\w` (Unicode word characters in Python) are approximated on ASCII as well, so a word like "ñed" is not a match in the model; whitespace uses Python's full `isspace` list.
- WritingStyle.Synonyms: `list(set(...))` has no defined order. The model keeps the first occurrence of each name in WordNet's order, so which five names survive a longer list is not the code's.
- Ranking.TermPointsCount: the set iteration order is not modelled. It cannot change the score, which the lemma shows.
- Arxiv.ShapeEntry: an author element without a name child raises, but a name element with empty text puts `None` into the author list without raising. The model treats both as a failure.
- The language model's reply is not parsed. A call whose request raises, or whose 200 body is not JSON with a first choice and a text content, is one outcome: the call raised.
- The error display inside the collection loop and the printed messages of the exception handlers are output only. They are not modelled.
- The abbreviation expansion rewrites `ai` and `ml` inside other words. This is the code's behaviour and is modelled as such.
- The key "look at" of the synonym table can never match a single token. This is the code's behaviour; it is proved rather than changed.
- Not modelled, because they are external libraries or services, UI, or file I/O:
  - readability metrics and sentence complexity;
  - `load_custom_rules`;
  - `modules/language_support.py`, `accessibility.py` and `modules/draft_generator.py`;
  - text extraction from PDF and DOCX, and writing the DOCX and PDF files;
  - `create_pages_dir.py`;
  - the Streamlit page layout beyond the result list.

=== FILE: levenshtein.dfy ===
/** Levenshtein distance and the similarity score built on it
    (`_levenshtein_distance` and `_calculate_similarity` of the publication
    searcher). The recursive `EditDistance` is the reference definition; the
    method `LevenshteinDistance` is the row-by-row table of the source,
    proved equal to it. */
module Levenshtein {
  import opened Strings

  function Min3(a: nat, b: nat, c: nat): (m: nat)
    ensures m <= a && m <= b && m <= c
    ensures m == a || m == b || m == c
  {
    if a <= b && a <= c then a else if b <= c then b else c
  }

  /** Unit-cost insertion / deletion / substitution distance, defined on
      prefixes so that it lines up with the rows of the table. */
  function EditDistance(a: string, b: string): nat
    decreases |a| + |b|
  {
    if |a| == 0 then |b|
    else if |b| == 0 then |a|
    else Min3(EditDistance(a[..|a| - 1], b) + 1,
              EditDistance(a, b[..|b| - 1]) + 1,
              EditDistance(a[..|a| - 1], b[..|b| - 1]) + (if a[|a| - 1] == b[|b| - 1] then 0 else 1))
  }

  /** The distance does not depend on the order of the arguments; the
      source relies on this when it swaps them so the longer comes first. */
  lemma {:induction false} DistanceSymmetric(a: string, b: string)
    ensures EditDistance(a, b) == EditDistance(b, a)
    decreases |a| + |b|
  {
    if |a| > 0 && |b| > 0 {
      DistanceSymmetric(a[..|a| - 1], b);
      DistanceSymmetric(a, b[..|b| - 1]);
      DistanceSymmetric(a[..|a| - 1], b[..|b| - 1]);
    }
  }

  /** Against the empty string the distance is the other string's length. */
  lemma DistanceToEmpty(s: string)
    ensures EditDistance(s, "") == |s| && EditDistance("", s) == |s|
  {
  }

  /** The distance is zero exactly on equal strings. */
  lemma {:induction false} DistanceZeroIffEqual(a: string, b: string)
    ensures EditDistance(a, b) == 0 <==> a == b
    decreases |a| + |b|
  {
    if |a| > 0 && |b| > 0 {
      var a', b' := a[..|a| - 1], b[..|b| - 1];
      DistanceZeroIffEqual(a', b');
      if a == b {
        assert a' == b';
      }
    }
  }

  /** The distance never exceeds the longer length. */
  lemma {:induction false} DistanceAtMostMax(a: string, b: string)
    ensures EditDistance(a, b) <= Max(|a|, |b|)
    decreases |a| + |b|
  {
    if |a| > 0 && |b| > 0 {
      DistanceAtMostMax(a[..|a| - 1], b[..|b| - 1]);
    }
  }

  /** One cell of the table: the recurrence read on prefixes of `a` and `b`. */
  lemma TableCell(a: string, b: string, i: nat, j: nat)
    requires i < |a| && j < |b|
    ensures EditDistance(a[..i + 1], b[..j + 1])
         == Min3(EditDistance(a[..i], b[..j + 1]) + 1,
                 EditDistance(a[..i + 1], b[..j]) + 1,
                 EditDistance(a[..i], b[..j]) + (if a[i] != b[j] then 1 else 0))
  {
    assert a[..i + 1][..i] == a[..i];
    assert b[..j + 1][..j] == b[..j];
  }

  /** `_levenshtein_distance`: swaps so that `s1` is the longer string,
      then fills the table one row per character of `s1`, keeping only the
      previous row. */
  method LevenshteinDistance(s1: string, s2: string) returns (d: nat)
    ensures d == EditDistance(s1, s2)
    decreases if |s1| < |s2| then 1 else 0
  {
    if |s1| < |s2| {
      d := LevenshteinDistance(s2, s1);
      DistanceSymmetric(s2, s1);
      return;
    }
    if |s2| == 0 {
      return |s1|;
    }
    var previous: seq<nat> := seq(|s2| + 1, j requires 0 <= j <= |s2| => j);
    var i := 0;
    while i < |s1|
      invariant 0 <= i <= |s1|
      invariant |previous| == |s2| + 1
      invariant forall j :: 0 <= j <= |s2| ==> previous[j] == EditDistance(s1[..i], s2[..j])
    {
      previous := NextRow(s1, s2, i, previous);
      i := i + 1;
    }
    assert s1[..|s1|] == s1 && s2[..|s2|] == s2;
    d := previous[|s2|];
  }

  /** The first `n + 1` cells of the table row of `a`: the distances from
      `a` to the prefixes of `b` of length `0` to `n`. */
  function Row(a: string, b: string, n: nat): (r: seq<nat>)
    requires n <= |b|
    ensures |r| == n + 1
  {
    seq(n + 1, k requires 0 <= k <= n => EditDistance(a, b[..k]))
  }

  /** One cell of the table from the cell above, the cell to the left and
      the cell diagonally above. */
  lemma RowStep(s1: string, s2: string, i: nat, j: nat, previous: seq<nat>, current: seq<nat>)
    requires i < |s1| && j < |s2| && |previous| == |s2| + 1
    requires previous[j] == EditDistance(s1[..i], s2[..j])
    requires previous[j + 1] == EditDistance(s1[..i], s2[..j + 1])
    requires current == Row(s1[..i + 1], s2, j)
    ensures current + [Min3(previous[j + 1] + 1, current[j] + 1, previous[j] + (if s1[i] != s2[j] then 1 else 0))]
         == Row(s1[..i + 1], s2, j + 1)
  {
    TableCell(s1, s2, i, j);
    assert current[j] == EditDistance(s1[..i + 1], s2[..j]);
    RowGrows(s1[..i + 1], s2, j);
  }

  lemma RowGrows(a: string, b: string, n: nat)
    requires n < |b|
    ensures Row(a, b, n + 1) == Row(a, b, n) + [EditDistance(a, b[..n + 1])]
  {
  }

  /** One row of the table: from the distances of `s1[..i]` to every
      prefix of `s2`, those of `s1[..i + 1]`. */
  method NextRow(s1: string, s2: string, i: nat, previous: seq<nat>) returns (current: seq<nat>)
    requires i < |s1| && |previous| == |s2| + 1
    requires forall j :: 0 <= j <= |s2| ==> previous[j] == EditDistance(s1[..i], s2[..j])
    ensures |current| == |s2| + 1
    ensures forall j :: 0 <= j <= |s2| ==> current[j] == EditDistance(s1[..i + 1], s2[..j])
  {
    current := [i + 1];
    assert s2[..0] == "";
    DistanceToEmpty(s1[..i + 1]);
    var j := 0;
    while j < |s2|
      invariant 0 <= j <= |s2|
      invariant current == Row(s1[..i + 1], s2, j)
    {
      var insertions := previous[j + 1] + 1;
      var deletions := current[j] + 1;
      var substitutions := previous[j] + (if s1[i] != s2[j] then 1 else 0);
      RowStep(s1, s2, i, j, previous, current);
      current := current + [Min3(insertions, deletions, substitutions)];
      j := j + 1;
    }
  }

  /** `_calculate_similarity`: `1 - distance / longer length`, and `0.0`
      when either string is empty. Python's float division is modelled
      by exact rational arithmetic. */
  function Similarity(a: string, b: string): (r: real)
    ensures 0.0 <= r <= 1.0
    ensures |a| == 0 || |b| == 0 ==> r == 0.0
    ensures |a| > 0 && a == b ==> r == 1.0
  {
    if |a| == 0 || |b| == 0 then 0.0
    else
      var m := Max(|a|, |b|);
      DistanceAtMostMax(a, b);
      DistanceZeroIffEqual(a, b);
      RatioInUnit(EditDistance(a, b) as real, m as real);
      1.0 - (EditDistance(a, b) as real) / (m as real)
  }

  lemma SimilaritySymmetric(a: string, b: string)
    ensures Similarity(a, b) == Similarity(b, a)
  {
    if |a| > 0 && |b| > 0 {
      DistanceSymmetric(a, b);
    }
  }

  /** The `> 0.8` threshold in whole numbers: five times the distance is
      below the longer length. */
  predicate Similar(a: string, b: string) {
    |a| > 0 && |b| > 0 && 5 * EditDistance(a, b) < Max(|a|, |b|)
  }

  lemma DivBelow(d: real, m: real, c: real)
    requires m > 0.0
    ensures d / m < c <==> d < c * m
  {
    var q := d / m;
    assert q * m == d;
    if q < c {
      assert q * m < c * m;
    } else {
      assert q * m >= c * m;
    }
  }

  lemma RatioInUnit(d: real, m: real)
    requires 0.0 <= d <= m && m > 0.0
    ensures 0.0 <= d / m <= 1.0
  {
    DivBelow(d, m, 0.0);
    var q := d / m;
    assert q * m == d;
    if q > 1.0 {
      assert q * m > 1.0 * m;
    }
  }

  /** `similarity > 0.8` holds exactly when `5 * distance < longer length`;
      in particular the boundary `5 * distance == longer length` is not
      similar. */
  lemma SimilarIffAboveThreshold(a: string, b: string)
    ensures Similarity(a, b) > 0.8 <==> Similar(a, b)
  {
    if |a| > 0 && |b| > 0 {
      assert Similarity(a, b) == 1.0 - (EditDistance(a, b) as real) / (Max(|a|, |b|) as real);
      DivBelow(EditDistance(a, b) as real, Max(|a|, |b|) as real, 0.2);
    }
  }
}

=== FILE: publications.dfy ===
/** The records that flow through the publication searcher: what an
    adapter (arXiv, Google Scholar, PubMed) returns, and what the ranking
    hands back to the page. */
module Publications {
  import opened Wrappers

  /** One result dictionary of an adapter. `link` is `None` where a scraper
      found no title element. */
  datatype RawResult = RawResult(
    title: string,
    authors: seq<string>,
    summary: string,
    link: Option<string>,
    published: string,
    source: string)

  /** A ranked publication: the adapter's fields, the caller's domain and
      the relevance score. */
  datatype Publication = Publication(
    title: string,
    authors: seq<string>,
    summary: string,
    link: Option<string>,
    published: string,
    source: string,
    domain: string,
    score: real)
}

/** `_search_arxiv` and `get_domain_suggestions`: the static
    domain-to-category table, the search string and request parameters
    built from it, and the shaping of the Atom entries of the reply. The
    HTTP request and the XML parser are a parameter: `fetch` maps the
    request to what came back. */
module Arxiv {
  import opened Wrappers
  import opened Strings
  import opened Publications

  const CategoryTable: map<string, seq<string>> := map[
    "Computer Science" := ["cs.AI", "cs.LG", "cs.CL", "cs.CV", "cs.NE"],
    "Physics" := ["physics"],
    "Mathematics" := ["math"],
    "Biology" := ["q-bio"],
    "Economics" := ["econ"],
    "Statistics" := ["stat"],
    "Electrical Engineering" := ["eess"],
    "Medicine" := ["q-bio.QM", "stat.ML", "cs.AI"],
    "Machine Learning" := ["cs.LG", "stat.ML"],
    "Artificial Intelligence" := ["cs.AI", "cs.LG", "cs.CL", "cs.CV"],
    "Data Science" := ["cs.DB", "stat.ML", "cs.LG"],
    "Robotics" := ["cs.RO", "cs.AI"],
    "Natural Language Processing" := ["cs.CL", "cs.AI"]
  ]

  /** The domain labels offered to the user, in display order. */
  const DomainSuggestions: seq<string> := [
    "Computer Science",
    "Physics",
    "Mathematics",
    "Biology",
    "Economics",
    "Statistics",
    "Electrical Engineering",
    "Medicine",
    "Machine Learning",
    "Artificial Intelligence",
    "Data Science",
    "Robotics",
    "Natural Language Processing"
  ]

  /** The category list of a domain, `["all"]` for a domain the table
      does not map. */
  function Categories(domain: string): seq<string> {
    if domain in CategoryTable then CategoryTable[domain] else ["all"]
  }

  /** `cat:c1 OR cat:c2 OR ...` in list order. */
  function CategoryClause(cs: seq<string>): string {
    Join(CategoryParts(cs), " OR ")
  }

  /** Each category written `cat:c`. */
  function CategoryParts(cs: seq<string>): (parts: seq<string>)
    ensures |parts| == |cs|
  {
    seq(|cs|, i requires 0 <= i < |cs| => "cat:" + cs[i])
  }

  /** `all:(q)`, followed by ` AND (cat:...)` unless the list is `["all"]`. */
  function QueryFor(q: string, cs: seq<string>): (r: string)
    ensures "all:(" + q + ")" <= r
  {
    var base := "all:(" + q + ")";
    if cs != ["all"] then base + " AND (" + CategoryClause(cs) + ")" else base
  }

  /** The `search_query` parameter for a domain. */
  function SearchQuery(q: string, domain: string): string {
    QueryFor(q, Categories(domain))
  }

  /** The query parameters of the API request. */
  datatype RequestParams = RequestParams(
    searchQuery: string,
    start: int,
    maxResults: int,
    sortBy: string,
    sortOrder: string)

  function Params(q: string, domain: string, limit: int): (p: RequestParams)
    ensures p.maxResults == limit && p.start == 0
    ensures p.searchQuery == SearchQuery(q, domain)
  {
    RequestParams(SearchQuery(q, domain), 0, limit, "relevance", "descending")
  }

  /** No mapped domain has the list `["all"]`, so a mapped domain always
      gets a category clause. */
  lemma NoMappedAll()
    ensures forall d :: d in CategoryTable ==> CategoryTable[d] != ["all"]
  {
    forall d | d in CategoryTable ensures CategoryTable[d] != ["all"] {
      assert CategoryTable[d][0] != "all";
    }
  }

  /** A domain outside the table searches all of arXiv: the query is
      exactly `all:(q)`. */
  lemma UnmappedQueryIsPlain(q: string, domain: string)
    requires domain !in CategoryTable
    ensures SearchQuery(q, domain) == "all:(" + q + ")"
  {
  }

  /** Category `i` of a narrowed query appears in it as `cat:c`. */
  lemma ClauseNamesCategory(q: string, cs: seq<string>, i: int)
    requires cs != ["all"] && 0 <= i < |cs|
    ensures Contains(QueryFor(q, cs), "cat:" + cs[i])
  {
    var parts := CategoryParts(cs);
    JoinContainsParts(parts, " OR ", i);
    var pre := "all:(" + q + ")" + " AND (";
    ContainsInFrame(pre, CategoryClause(cs), ")", parts[i]);
    assert QueryFor(q, cs) == pre + CategoryClause(cs) + ")";
  }

  /** Every category of a narrowed query appears in it as `cat:c`. */
  lemma ClauseNamesCategories(q: string, cs: seq<string>)
    requires cs != ["all"]
    ensures forall i :: 0 <= i < |cs| ==> Contains(QueryFor(q, cs), "cat:" + cs[i])
  {
    forall i | 0 <= i < |cs| ensures Contains(QueryFor(q, cs), "cat:" + cs[i]) {
      ClauseNamesCategory(q, cs, i);
    }
  }

  /** For a mapped domain the query is `all:(q) AND (...)` with every
      category of the table, in table order, each written `cat:c`. */
  lemma MappedQueryNamesCategories(q: string, domain: string)
    requires domain in CategoryTable
    ensures var cs := CategoryTable[domain];
      && SearchQuery(q, domain) == "all:(" + q + ") AND (" + CategoryClause(cs) + ")"
      && forall i :: 0 <= i < |cs| ==> Contains(SearchQuery(q, domain), "cat:" + cs[i])
  {
    NoMappedAll();
    ClauseNamesCategories(q, CategoryTable[domain]);
  }

  /** Every label offered to the user has a category list. */
  lemma SuggestionsAreMapped()
    ensures |DomainSuggestions| == 13
    ensures forall i :: 0 <= i < |DomainSuggestions| ==> DomainSuggestions[i] in CategoryTable
  {
  }

  /** ... and every key of the table is offered. */
  lemma MappedAreSuggested()
    ensures forall d :: d in CategoryTable ==> d in DomainSuggestions
  {
  }

  /* ---------------------------------------------------------------- */
  /* The reply                                                         */
  /* ---------------------------------------------------------------- */

  /** One `<entry>` of the Atom feed: the text of each child element, or
      `None` when the element is missing or has no text (either makes the
      source's `.text.strip()` raise). */
  datatype AtomEntry = AtomEntry(
    title: Option<string>,
    authorNames: seq<Option<string>>,
    summary: Option<string>,
    id: Option<string>,
    published: Option<string>)

  /** What the request produced: it raised, or a status and, for a body
      that parses as XML, its entries. */
  datatype ArxivReply =
    | RequestFailed
    | Reply(status: int, feed: Option<seq<AtomEntry>>)

  predicate AllPresent(xs: seq<Option<string>>) {
    forall i :: 0 <= i < |xs| ==> xs[i].Some?
  }

  function Values(xs: seq<Option<string>>): (r: seq<string>)
    requires AllPresent(xs)
    ensures |r| == |xs| && forall i :: 0 <= i < |xs| ==> r[i] == xs[i].value
  {
    seq(|xs|, i requires 0 <= i < |xs| => xs[i].value)
  }

  predicate WellFormed(e: AtomEntry) {
    e.title.Some? && AllPresent(e.authorNames) && e.summary.Some? && e.id.Some? && e.published.Some?
  }

  /** The result dictionary of one entry, or `None` when building it
      raises. Texts are stripped except the author names. */
  function ShapeEntry(e: AtomEntry): (r: Option<RawResult>)
    ensures r.Some? <==> WellFormed(e)
    ensures r.Some? ==> r.value.source == "arXiv" && r.value.link.Some?
    ensures r.Some? ==> |r.value.authors| == |e.authorNames|
  {
    if WellFormed(e) then
      Some(RawResult(Strip(e.title.value), Values(e.authorNames), Strip(e.summary.value),
                     Some(Strip(e.id.value)), Strip(e.published.value), "arXiv"))
    else None
  }

  /** The whole loop over the entries: one malformed entry makes the
      loop raise. */
  function ShapeEntries(es: seq<AtomEntry>): (r: Option<seq<RawResult>>)
    ensures r.Some? ==> |r.value| == |es|
    ensures r.Some? ==> forall x :: x in r.value ==> x.source == "arXiv"
    decreases |es|
  {
    if |es| == 0 then Some([])
    else
      var head, tail := ShapeEntry(es[0]), ShapeEntries(es[1..]);
      if head.Some? && tail.Some? then Some([head.value] + tail.value) else None
  }

  /** The loop succeeds exactly when every entry is well formed. */
  lemma {:induction false} ShapeEntriesSucceed(es: seq<AtomEntry>)
    ensures ShapeEntries(es).Some? <==> forall i :: 0 <= i < |es| ==> WellFormed(es[i])
    decreases |es|
  {
    if |es| > 0 {
      var tail := es[1..];
      ShapeEntriesSucceed(tail);
      assert forall i :: 1 <= i < |es| ==> es[i] == tail[i - 1];
    }
  }

  /** A successful loop gives each entry's record, in feed order. */
  lemma {:induction false} ShapeEntriesInOrder(es: seq<AtomEntry>)
    requires ShapeEntries(es).Some?
    ensures forall i :: 0 <= i < |es| ==> Some(ShapeEntries(es).value[i]) == ShapeEntry(es[i])
    decreases |es|
  {
    if |es| > 0 {
      var tail := es[1..];
      var xs := ShapeEntries(tail).value;
      ShapeEntriesInOrder(tail);
      var r := ShapeEntries(es).value;
      assert r == [ShapeEntry(es[0]).value] + xs;
      forall i | 0 <= i < |es| ensures Some(r[i]) == ShapeEntry(es[i]) {
        if i > 0 {
          assert r[i] == xs[i - 1] && es[i] == tail[i - 1];
        }
      }
    }
  }

  /** `_search_arxiv` with its own handler: any failure gives `[]`. */
  function SearchArxiv(q: string, domain: string, limit: int, fetch: RequestParams -> ArxivReply): (r: seq<RawResult>)
    ensures forall x :: x in r ==> x.source == "arXiv"
  {
    match fetch(Params(q, domain, limit))
    case Reply(200, Some(es)) => ShapeEntries(es).GetOr([])
    case _ => []
  }

  /** Each failure gives no results, and the search goes on without arXiv:
      a request that raised, a status other than 200, a feed that does not
      parse, or an entry with a missing element. */
  lemma FailedRequestGivesNothing(q: string, domain: string, limit: int, fetch: RequestParams -> ArxivReply)
    requires var reply := fetch(Params(q, domain, limit));
      || reply.RequestFailed?
      || reply.status != 200
      || reply.feed.None?
      || exists i :: 0 <= i < |reply.feed.value| && !WellFormed(reply.feed.value[i])
    ensures SearchArxiv(q, domain, limit, fetch) == []
  {
    var reply := fetch(Params(q, domain, limit));
    if reply.Reply? && reply.feed.Some? {
      ShapeEntriesSucceed(reply.feed.value);
    }
  }

  /** A 200 reply whose entries are all well formed yields one result per
      entry, in feed order; anything else yields nothing. */
  lemma ArxivResultsFollowFeed(q: string, domain: string, limit: int, fetch: RequestParams -> ArxivReply)
    ensures var reply := fetch(Params(q, domain, limit));
      var r := SearchArxiv(q, domain, limit, fetch);
      if reply.Reply? && reply.status == 200 && reply.feed.Some?
         && (forall i :: 0 <= i < |reply.feed.value| ==> WellFormed(reply.feed.value[i]))
      then |r| == |reply.feed.value|
           && forall i :: 0 <= i < |r| ==> Some(r[i]) == ShapeEntry(reply.feed.value[i])
      else r == []
  {
    var reply := fetch(Params(q, domain, limit));
    if reply.Reply? && reply.status == 200 && reply.feed.Some? {
      assert SearchArxiv(q, domain, limit, fetch) == ShapeEntries(reply.feed.value).GetOr([]);
      ShapeEntriesSucceed(reply.feed.value);
      if ShapeEntries(reply.feed.value).Some? {
        ShapeEntriesInOrder(reply.feed.value);
      }
    }
  }
}

/** `_search_google_scholar` and `_search_pubmed`: the page is a
    parameter (`fetch` maps the URL to the parsed page, or says the request
    raised); each result block is a record of optional elements. Neither
    adapter has an exception handler, so a failure is returned as `None`
    and empties the whole search. */
module Scrapers {
  import opened Wrappers
  import opened Strings
  import opened Publications

  const ScholarSource := "Google Scholar"
  const PubmedSource := "PubMed"

  /** The title element; `href` is `None` when the link cannot be read
      (no anchor, or an anchor without `href`), which raises. */
  datatype TitleElement = TitleElement(text: string, href: Option<string>)

  /** One result block: its title, author and date elements, each
      possibly missing. */
  datatype ResultBlock = ResultBlock(
    title: Option<TitleElement>,
    authors: Option<string>,
    date: Option<string>)

  /** The fetched page: the request raised, or the page's result blocks. */
  datatype Page = Unreachable | Fetched(blocks: seq<ResultBlock>)

  /** The Scholar request URL: the query is pasted unencoded between the
      fixed 37-character base and the 19-character parameter tail. */
  function ScholarUrl(q: string): (u: string)
    ensures |u| == 37 + |q| + 19
    ensures u[..37] == "https://scholar.google.com/scholar?q="
    ensures u[37..37 + |q|] == q
    ensures u[37 + |q|..] == "&hl=en&as_sdt=0%2C5"
  {
    "https://scholar.google.com/scholar?q=" + q + "&hl=en&as_sdt=0%2C5"
  }

  /** The PubMed request URL: the query is pasted unencoded between the
      fixed 38-character base and the 9-character size parameter. */
  function PubmedUrl(q: string): (u: string)
    ensures |u| == 38 + |q| + 9
    ensures u[..38] == "https://pubmed.ncbi.nlm.nih.gov/?term="
    ensures u[38..38 + |q|] == q
    ensures u[38 + |q|..] == "&size=200"
  {
    "https://pubmed.ncbi.nlm.nih.gov/?term=" + q + "&size=200"
  }

  /** Different queries ask for different pages. */
  lemma UrlsDetermineQuery(q1: string, q2: string)
    ensures ScholarUrl(q1) == ScholarUrl(q2) ==> q1 == q2
    ensures PubmedUrl(q1) == PubmedUrl(q2) ==> q1 == q2
  {
    if ScholarUrl(q1) == ScholarUrl(q2) {
      assert q1 == ScholarUrl(q1)[37..37 + |q1|];
    }
    if PubmedUrl(q1) == PubmedUrl(q2) {
      assert q1 == PubmedUrl(q1)[38..38 + |q1|];
    }
  }

  /** Stripped text of an optional element, or the sentinel. */
  function TextOr(e: Option<string>, sentinel: string): string {
    match e
    case Some(t) => Strip(t)
    case None => sentinel
  }

  predicate Shapeable(b: ResultBlock) {
    b.title.None? || b.title.value.href.Some?
  }

  /** The result dictionary of one block, or `None` when reading the
      title's link raises. Missing elements get sentinel texts. */
  function ShapeBlock(b: ResultBlock, source: string): (r: Option<RawResult>)
    ensures r.Some? <==> Shapeable(b)
    ensures r.Some? ==> && |r.value.authors| == 1 && r.value.summary == ""
                        && r.value.source == source
    ensures r.Some? && b.title.None? ==> r.value.title == "No title" && r.value.link.None?
    ensures r.Some? && b.authors.None? ==> r.value.authors == ["No authors"]
    ensures r.Some? && b.date.None? ==> r.value.published == "No date"
  {
    var authors := TextOr(b.authors, "No authors");
    var published := TextOr(b.date, "No date");
    match b.title
    case None => Some(RawResult("No title", [authors], "", None, published, source))
    case Some(t) =>
      if t.href.None? then None
      else Some(RawResult(Strip(t.text), [authors], "", t.href, published, source))
  }

  /** The loop over all blocks of the page; it runs before the
      truncation, so a bad block past the limit still raises. */
  function ShapeBlocks(bs: seq<ResultBlock>, source: string): (r: Option<seq<RawResult>>)
    ensures r.Some? ==> |r.value| == |bs|
    ensures r.Some? ==> forall x :: x in r.value ==>
      |x.authors| == 1 && x.summary == "" && x.source == source
    decreases |bs|
  {
    if |bs| == 0 then Some([])
    else
      var head, tail := ShapeBlock(bs[0], source), ShapeBlocks(bs[1..], source);
      if head.Some? && tail.Some? then Some([head.value] + tail.value) else None
  }

  /** The loop succeeds exactly when every block can be shaped. */
  lemma {:induction false} ShapeBlocksSucceed(bs: seq<ResultBlock>, source: string)
    ensures ShapeBlocks(bs, source).Some? <==> forall i :: 0 <= i < |bs| ==> Shapeable(bs[i])
    decreases |bs|
  {
    if |bs| > 0 {
      var tail := bs[1..];
      ShapeBlocksSucceed(tail, source);
      assert forall i :: 1 <= i < |bs| ==> bs[i] == tail[i - 1];
    }
  }

  /** A successful loop gives each block's record, in page order. */
  lemma {:induction false} ShapeBlocksInOrder(bs: seq<ResultBlock>, source: string)
    requires ShapeBlocks(bs, source).Some?
    ensures forall i :: 0 <= i < |bs| ==> Some(ShapeBlocks(bs, source).value[i]) == ShapeBlock(bs[i], source)
    decreases |bs|
  {
    if |bs| > 0 {
      var tail := bs[1..];
      var xs := ShapeBlocks(tail, source).value;
      ShapeBlocksInOrder(tail, source);
      var r := ShapeBlocks(bs, source).value;
      assert r == [ShapeBlock(bs[0], source).value] + xs;
      forall i | 0 <= i < |bs| ensures Some(r[i]) == ShapeBlock(bs[i], source) {
        if i > 0 {
          assert r[i] == xs[i - 1] && bs[i] == tail[i - 1];
        }
      }
    }
  }

  /** Shape every block, then keep the first `limit` (`results[:limit]`). */
  function Scrape(page: Page, source: string, limit: int): (r: Option<seq<RawResult>>)
    ensures r.Some? ==> forall x :: x in r.value ==>
      |x.authors| == 1 && x.summary == "" && x.source == source
  {
    match page
    case Unreachable => None
    case Fetched(bs) =>
      match ShapeBlocks(bs, source)
      case Some(xs) => Some(PyTake(xs, limit))
      case None => None
  }

  /** The Scholar adapter: fetch the query's Scholar page and scrape it;
      every record is tagged "Google Scholar". */
  function SearchScholar(q: string, limit: int, fetch: string -> Page): (r: Option<seq<RawResult>>)
    ensures r.Some? ==> forall x :: x in r.value ==> x.source == ScholarSource
  {
    Scrape(fetch(ScholarUrl(q)), ScholarSource, limit)
  }

  /** The PubMed adapter: fetch the query's PubMed page and scrape it;
      every record is tagged "PubMed". */
  function SearchPubmed(q: string, limit: int, fetch: string -> Page): (r: Option<seq<RawResult>>)
    ensures r.Some? ==> forall x :: x in r.value ==> x.source == PubmedSource
  {
    Scrape(fetch(PubmedUrl(q)), PubmedSource, limit)
  }

  /** A scrape succeeds exactly when the page was fetched and every block
      on it (not only the first `limit`) can be shaped; it then holds at
      most `limit` records, the first blocks' records in page order. */
  lemma ScrapeSpec(page: Page, source: string, limit: int)
    ensures Scrape(page, source, limit).Some?
        <==> page.Fetched? && forall i :: 0 <= i < |page.blocks| ==> Shapeable(page.blocks[i])
    ensures Scrape(page, source, limit).Some? && limit >= 0 ==>
      |Scrape(page, source, limit).value| == Min(limit, |page.blocks|)
    ensures Scrape(page, source, limit).Some? ==>
      var r := Scrape(page, source, limit).value;
      forall i :: 0 <= i < |r| ==> Some(r[i]) == ShapeBlock(page.blocks[i], source)
  {
    if page.Fetched? {
      ShapeBlocksSucceed(page.blocks, source);
      if ShapeBlocks(page.blocks, source).Some? {
        ShapeBlocksInOrder(page.blocks, source);
      }
    }
  }

  /** The Scholar adapter succeeds exactly when the page at the query's
      Scholar URL was fetched and all its blocks can be shaped; it then
      gives the first `limit` blocks' records in page order. */
  lemma SearchScholarSpec(q: string, limit: int, fetch: string -> Page)
    ensures var page := fetch(ScholarUrl(q));
      && (SearchScholar(q, limit, fetch).Some? <==>
            page.Fetched? && forall i :: 0 <= i < |page.blocks| ==> Shapeable(page.blocks[i]))
      && (SearchScholar(q, limit, fetch).Some? && limit >= 0 ==>
            |SearchScholar(q, limit, fetch).value| == Min(limit, |page.blocks|))
      && (SearchScholar(q, limit, fetch).Some? ==>
            var r := SearchScholar(q, limit, fetch).value;
            forall i :: 0 <= i < |r| ==> Some(r[i]) == ShapeBlock(page.blocks[i], ScholarSource))
  {
    ScrapeSpec(fetch(ScholarUrl(q)), ScholarSource, limit);
  }

  /** The PubMed adapter succeeds exactly when the page at the query's
      PubMed URL was fetched and all its blocks can be shaped; it then
      gives the first `limit` blocks' records in page order. */
  lemma SearchPubmedSpec(q: string, limit: int, fetch: string -> Page)
    ensures var page := fetch(PubmedUrl(q));
      && (SearchPubmed(q, limit, fetch).Some? <==>
            page.Fetched? && forall i :: 0 <= i < |page.blocks| ==> Shapeable(page.blocks[i]))
      && (SearchPubmed(q, limit, fetch).Some? && limit >= 0 ==>
            |SearchPubmed(q, limit, fetch).value| == Min(limit, |page.blocks|))
      && (SearchPubmed(q, limit, fetch).Some? ==>
            var r := SearchPubmed(q, limit, fetch).value;
            forall i :: 0 <= i < |r| ==> Some(r[i]) == ShapeBlock(page.blocks[i], PubmedSource))
  {
    ScrapeSpec(fetch(PubmedUrl(q)), PubmedSource, limit);
  }

  /** A block past the limit whose link cannot be read still makes the
      adapter raise. */
  lemma BadBlockPastLimitFails(bs: seq<ResultBlock>, source: string, limit: int, i: int)
    requires 0 <= limit <= i < |bs| && !Shapeable(bs[i])
    ensures Scrape(Fetched(bs), source, limit).None?
  {
    ShapeBlocksSucceed(bs, source);
  }
}

=== FILE: query_normalizer.dfy ===
/** The seven domain names that have a keyword list, lower-cased, and the
    character facts about them that make the abbreviation expansion leave
    them intact. Kept apart from the normaliser so that these literal checks
    are made in a small context. */
module DomainNames {
  import opened Strings

  /** `x` survives the abbreviation expansion wherever it occurs: it holds
      neither `ai` nor `ml`, cannot complete either at its edges, and is
      non-blank at both ends. */
  predicate RewriteSafe(x: string) {
    && |x| > 0
    && !HasPair(x, 'a', 'i') && !HasPair(x, 'm', 'l')
    && x[0] != 'i' && x[0] != 'l'
    && x[|x| - 1] != 'a' && x[|x| - 1] != 'm'
    && !IsSpace(x[0]) && !IsSpace(x[|x| - 1])
  }

  lemma SafeMedicine() ensures RewriteSafe(Lower("Medicine")) {
    LoweredMedicine();
    PairFreeMedicine();
    NoPairs("medicine");
  }

  lemma LoweredMedicine() ensures Lower("Medicine") == "medicine" {
  }

  lemma PairFreeMedicine() ensures !HasPair("medicine", 'a', 'i') && !HasPair("medicine", 'm', 'l') {
  }

  lemma SafeComputerScience() ensures RewriteSafe(Lower("Computer Science")) {
    LoweredComputerScience();
    PairFreeComputerScience();
    NoPairs("computer science");
  }

  lemma LoweredComputerScience() ensures Lower("Computer Science") == "computer science" {
  }

  lemma PairFreeComputerScience() ensures !HasPair("computer science", 'a', 'i') && !HasPair("computer science", 'm', 'l') {
  }

  lemma SafeArtificialIntelligence() ensures RewriteSafe(Lower("Artificial Intelligence")) {
    LoweredArtificialIntelligence();
    PairFreeArtificialIntelligence();
    NoPairs("artificial intelligence");
  }

  lemma LoweredArtificialIntelligence() ensures Lower("Artificial Intelligence") == "artificial intelligence" {
  }

  lemma PairFreeArtificialIntelligence() ensures !HasPair("artificial intelligence", 'a', 'i') && !HasPair("artificial intelligence", 'm', 'l') {
  }

  lemma SafeMachineLearning() ensures RewriteSafe(Lower("Machine Learning")) {
    LoweredMachineLearning();
    PairFreeMachineLearning();
    NoPairs("machine learning");
  }

  lemma LoweredMachineLearning() ensures Lower("Machine Learning") == "machine learning" {
  }

  lemma PairFreeMachineLearning() ensures !HasPair("machine learning", 'a', 'i') && !HasPair("machine learning", 'm', 'l') {
  }

  lemma SafeDataScience() ensures RewriteSafe(Lower("Data Science")) {
    LoweredDataScience();
    PairFreeDataScience();
    NoPairs("data science");
  }

  lemma LoweredDataScience() ensures Lower("Data Science") == "data science" {
  }

  lemma PairFreeDataScience() ensures !HasPair("data science", 'a', 'i') && !HasPair("data science", 'm', 'l') {
  }

  lemma SafeRobotics() ensures RewriteSafe(Lower("Robotics")) {
    LoweredRobotics();
    PairFreeRobotics();
    NoPairs("robotics");
  }

  lemma LoweredRobotics() ensures Lower("Robotics") == "robotics" {
  }

  lemma PairFreeRobotics() ensures !HasPair("robotics", 'a', 'i') && !HasPair("robotics", 'm', 'l') {
  }

  lemma SafeNaturalLanguageProcessing() ensures RewriteSafe(Lower("Natural Language Processing")) {
    LoweredNaturalLanguageProcessing();
    PairFreeNaturalLanguageProcessing();
    NoPairs("natural language processing");
  }

  lemma LoweredNaturalLanguageProcessing() ensures Lower("Natural Language Processing") == "natural language processing" {
  }

  lemma PairFreeNaturalLanguageProcessing() ensures !HasPair("natural language processing", 'a', 'i') && !HasPair("natural language processing", 'm', 'l') {
  }

  /** The two expansions contain no upper-case letter. */
  lemma ExpansionsLowerCase()
    ensures IsLowerCase("artificial intelligence") && IsLowerCase("machine learning")
  {
  }

  /** The literal checks behind `RewriteSafe`, on one lower-cased name. */
  lemma NoPairs(x: string)
    requires |x| > 0 && x[0] != 'i' && x[0] != 'l' && x[|x| - 1] != 'a' && x[|x| - 1] != 'm'
    requires !IsSpace(x[0]) && !IsSpace(x[|x| - 1])
    requires !HasPair(x, 'a', 'i') && !HasPair(x, 'm', 'l')
    ensures RewriteSafe(x)
  {
  }
}

/** `_preprocess_query` of the publication searcher: lower-case and strip
    the query, append the lower-cased domain name when the domain's keyword
    table says the query lacks it, then expand the abbreviations `ai` and
    `ml`. */
module QueryNormalizer {
  import opened Strings
  import opened Levenshtein
  import opened DomainNames

  /** The domain -> representative keywords table, keywords in table order. */
  const DomainKeywords: map<string, seq<string>> := map[
    "Medicine" := ["medical", "healthcare", "clinical", "patient"],
    "Computer Science" := ["computing", "algorithm", "software", "system"],
    "Artificial Intelligence" := ["ai", "machine learning", "deep learning", "neural"],
    "Machine Learning" := ["ml", "deep learning", "neural network", "algorithm"],
    "Data Science" := ["data", "analytics", "mining", "statistical"],
    "Robotics" := ["robot", "automation", "control", "mechanical"],
    "Natural Language Processing" := ["nlp", "language", "text", "linguistic"]
  ]

  /** Some query term is more than 0.8-similar to `keyword`. */
  predicate CloseToSomeTerm(keyword: string, terms: seq<string>) {
    exists t | t in terms :: Similarity(keyword, t) > 0.8
  }

  /** `keyword` is a substring of some query term. */
  predicate InsideSomeTerm(keyword: string, terms: seq<string>) {
    exists t | t in terms :: Contains(t, keyword)
  }

  /** The keyword loop as written: a keyword close to a term is skipped
      (`continue`); the first keyword that is inside no term ends the loop
      (`break`) at the point where the domain may be appended. The result
      says whether that point is reached. */
  function KeywordLoopBreaks(keywords: seq<string>, terms: seq<string>): bool
    decreases |keywords|
  {
    if |keywords| == 0 then false
    else if CloseToSomeTerm(keywords[0], terms) then KeywordLoopBreaks(keywords[1..], terms)
    else if !InsideSomeTerm(keywords[0], terms) then true
    else KeywordLoopBreaks(keywords[1..], terms)
  }

  /** Whether the domain name is appended to the lower-cased, stripped
      query `q`. */
  predicate AppendsDomain(q: string, domain: string) {
    && domain in DomainKeywords
    && KeywordLoopBreaks(DomainKeywords[domain], Words(q))
    && !Contains(Lower(q), Lower(domain))
  }

  /** When `ai` or `ml` is a whitespace-separated token, every substring
      occurrence of `ai` is replaced, and then every occurrence of `ml`. */
  function ExpandAbbreviations(q: string): (r: string)
    ensures IsLowerCase(q) ==> IsLowerCase(r)
  {
    ExpansionsLowerCase();
    var terms := Words(q);
    if "ai" in terms || "ml" in terms then
      ReplaceAll(ReplaceAll(q, "ai", "artificial intelligence"), "ml", "machine learning")
    else q
  }

  /** When the rule fires, no `ai` and no `ml` is left anywhere in the
      query: the scan replaces every occurrence, and neither expansion
      holds one or forms one with its neighbours. When it does not fire,
      the query is unchanged. */
  lemma ExpansionRemovesAbbreviations(q: string)
    ensures var r := ExpandAbbreviations(q);
      if "ai" in Words(q) || "ml" in Words(q) then !Contains(r, "ai") && !Contains(r, "ml")
      else r == q
  {
    if "ai" in Words(q) || "ml" in Words(q) {
      var ai, ml := "artificial intelligence", "machine learning";
      PairFreeArtificialIntelligence();
      PairFreeMachineLearning();
      assert "ai" == ['a', 'i'] && "ml" == ['m', 'l'];
      var r1 := ReplaceAll(q, "ai", ai);
      ReplaceRemovesPair(q, 'a', 'i', ai);
      var r := ReplaceAll(r1, "ml", ml);
      ReplaceRemovesPair(r1, 'm', 'l', ml);
      ReplaceKeepsPairFree(r1, "ml", ml, 'a', 'i');
      NoPairNoOccurrence(r, 'a', 'i');
      NoPairNoOccurrence(r, 'm', 'l');
    }
  }

  /** The `ai` pass on a query that starts with `ai` and holds no other. */
  lemma AiPass(q: string, rest: string)
    requires q == "ai" + rest && !HasPair(rest, 'a', 'i')
    ensures ReplaceAll(q, "ai", "artificial intelligence") == "artificial intelligence" + rest
  {
    assert "ai" == ['a', 'i'];
    NoPairNoOccurrence(rest, 'a', 'i');
    ReplaceStep("", "ai", rest, "artificial intelligence");
    assert "" + "ai" + rest == q;
  }

  /** The `ml` pass on a text whose only `ml` follows `x`. */
  lemma MlPass(s: string, x: string, t: string)
    requires s == x + "ml" + t
    requires !HasPair(x, 'm', 'l') && !HasPair(t, 'm', 'l')
    ensures ReplaceAll(s, "ml", "machine learning") == x + "machine learning" + t
  {
    assert "ml" == ['m', 'l'];
    NoEarlyPair(x, "ml" + t, 'm', 'l');
    assert x + ("ml" + t) == s;
    ReplaceStep(x, "ml", t, "machine learning");
    NoPairNoOccurrence(t, 'm', 'l');
  }

  /** A query that starts with the token `ai`, then holds `ml`, and has no
      other `ai` or `ml`: the `ai` pass puts "artificial intelligence" in
      place of the first, and the `ml` pass then puts "machine learning"
      in place of the second; everything else is kept. */
  lemma ExpandBoth(u: string, t: string)
    requires |u| > 0 && IsSpace(u[0])
    requires !HasPair(u, 'a', 'i') && !HasPair(u, 'm', 'l')
    requires !HasPair(t, 'a', 'i') && !HasPair(t, 'm', 'l')
    ensures ExpandAbbreviations("ai" + u + "ml" + t) == "artificial intelligence" + u + "machine learning" + t
  {
    var ai := "artificial intelligence";
    var q := "ai" + u + "ml" + t;
    var rest := u + "ml" + t;
    FourParts("ai", u, "ml", t, ai);
    LeadingAiFires(q, rest);
    assert "ml" == ['m', 'l'];
    NoPairInConcat("ml", t, 'a', 'i');
    NoPairInConcat(u, "ml" + t, 'a', 'i');
    AiPass(q, rest);
    PairFreeArtificialIntelligence();
    NoPairInConcat(ai, u, 'm', 'l');
    MlPass(ai + rest, ai + u, t);
  }

  /** A query that starts with the token `ai` fires the rule. */
  lemma LeadingAiFires(q: string, rest: string)
    requires q == "ai" + rest && (|rest| == 0 || IsSpace(rest[0]))
    ensures ExpandAbbreviations(q)
      == ReplaceAll(ReplaceAll(q, "ai", "artificial intelligence"), "ml", "machine learning")
  {
    assert IsToken("ai");
    WordsOfTokenThen("ai", rest);
  }

  lemma FourParts<T>(a: seq<T>, u: seq<T>, m: seq<T>, t: seq<T>, b: seq<T>)
    ensures a + u + m + t == a + (u + m + t) && u + m + t == u + (m + t)
    ensures b + (u + m + t) == b + u + m + t
  {
  }

  /** A query whose only abbreviation is a leading `ai` token gets
      "artificial intelligence" in its place and is otherwise kept. */
  lemma ExpandLeadingAi(t: string)
    requires |t| == 0 || IsSpace(t[0])
    requires !HasPair(t, 'a', 'i') && !HasPair(t, 'm', 'l')
    ensures ExpandAbbreviations("ai" + t) == "artificial intelligence" + t
  {
    var ai := "artificial intelligence";
    var q := "ai" + t;
    LeadingAiFires(q, t);
    AiPass(q, t);
    PairFreeArtificialIntelligence();
    NoPairInConcat(ai, t, 'm', 'l');
    NoPairNoOccurrence(ai + t, 'm', 'l');
  }

  /** The query after the domain rule: `q` with one space and the
      lower-cased domain name added when the rule fires, else `q`. */
  function WithDomain(q: string, domain: string): (r: string)
    ensures IsLowerCase(q) ==> IsLowerCase(r)
    ensures q <= r
  {
    assert IsLowerCase(q) ==> IsLowerCase(q + " " + Lower(domain)) by {
      if IsLowerCase(q) {
        LowerCaseConcat(q, " ");
        LowerCaseConcat(q + " ", Lower(domain));
      }
    }
    if AppendsDomain(q, domain) then q + " " + Lower(domain) else q
  }

  /** `_preprocess_query`. */
  function Preprocess(query: string, domain: string): (r: string)
    ensures IsLowerCase(r)
  {
    StripKeepsLowerCase(Lower(query));
    ExpandAbbreviations(WithDomain(Strip(Lower(query)), domain))
  }

  /* ---------------------------------------------------------------- */
  /* The append rule, stated without the loop                          */
  /* ---------------------------------------------------------------- */

  /** A keyword the query already covers: some term contains it or is more
      than 0.8-similar to it (threshold in whole numbers). */
  predicate Covered(keyword: string, terms: seq<string>) {
    exists t | t in terms :: Similar(keyword, t) || Contains(t, keyword)
  }

  /** The loop reaches its append point exactly when some keyword is not
      covered; it is not required that all keywords be missing. */
  lemma {:induction false} KeywordLoopSpec(keywords: seq<string>, terms: seq<string>)
    ensures KeywordLoopBreaks(keywords, terms)
        <==> exists k | k in keywords :: !Covered(k, terms)
    decreases |keywords|
  {
    if |keywords| > 0 {
      var k, rest := keywords[0], keywords[1..];
      KeywordLoopSpec(rest, terms);
      assert CloseToSomeTerm(k, terms) || InsideSomeTerm(k, terms) <==> Covered(k, terms) by {
        forall t | t in terms ensures Similarity(k, t) > 0.8 <==> Similar(k, t) {
          SimilarIffAboveThreshold(k, t);
        }
      }
      assert KeywordLoopBreaks(keywords, terms) <==> !Covered(k, terms) || KeywordLoopBreaks(rest, terms);
      assert keywords == [k] + rest;
      assert (exists k' | k' in keywords :: !Covered(k', terms))
         <==> !Covered(k, terms) || (exists k' | k' in rest :: !Covered(k', terms));
    }
  }

  /** The normaliser as one rule: the query is lower-cased and stripped;
      the lower-cased domain is appended, after one space, exactly when the
      domain has a keyword list, the domain name is not already in the
      query, and some keyword is neither inside a term nor 0.8-similar to
      one; then the abbreviations are expanded. */
  lemma PreprocessSpec(query: string, domain: string)
    ensures var q := Strip(Lower(query));
      Preprocess(query, domain) == ExpandAbbreviations(
        if && domain in DomainKeywords
           && !Contains(q, Lower(domain))
           && (exists k | k in DomainKeywords[domain] :: !Covered(k, Words(q)))
        then q + " " + Lower(domain)
        else q)
  {
    var q := Strip(Lower(query));
    StripKeepsLowerCase(Lower(query));
    assert Lower(q) == q;
    if domain in DomainKeywords {
      KeywordLoopSpec(DomainKeywords[domain], Words(q));
    }
  }

  /** A domain without a keyword list (for instance "Physics") never gets
      its name appended. */
  lemma UnmappedDomainNeverAppends(query: string, domain: string)
    requires domain !in DomainKeywords
    ensures Preprocess(query, domain) == ExpandAbbreviations(Strip(Lower(query)))
    ensures "Physics" !in DomainKeywords
  {
  }

  /** A query that already holds the lower-cased domain name gets nothing
      appended. */
  lemma PresentDomainNeverAppends(query: string, domain: string)
    requires Contains(Strip(Lower(query)), Lower(domain))
    ensures Preprocess(query, domain) == ExpandAbbreviations(Strip(Lower(query)))
  {
    var q := Strip(Lower(query));
    StripKeepsLowerCase(Lower(query));
    assert Lower(q) == q;
  }

  /** A rewrite-safe name after one space holds neither `ai` nor `ml`, so
      the abbreviation rule leaves it as it is. */
  lemma SpacedNameNotExpanded(x: string)
    requires RewriteSafe(x)
    ensures ExpandAbbreviations(" " + x) == " " + x
  {
    var q' := " " + x;
    assert !HasPair(q', 'a', 'i') && !HasPair(q', 'm', 'l') by {
      assert forall i :: 1 <= i < |q'| ==> q'[i] == x[i - 1];
    }
    NoPairNoOccurrence(q', 'a', 'i');
    NoPairNoOccurrence(q', 'm', 'l');
  }

  /** A blank query with a mapped domain becomes the domain name after a
      single leading space: no keyword can be covered by an empty term list,
      and the appended text is not stripped again. */
  lemma BlankQueryGetsLeadingSpace(query: string, domain: string)
    requires Strip(Lower(query)) == "" && domain in DomainKeywords
    ensures Preprocess(query, domain) == " " + Lower(domain)
  {
    EmptyQueryAppends(domain);
    DomainNameRewriteSafe(domain);
    SpacedNameNotExpanded(Lower(domain));
  }

  /** An empty term list covers no keyword, so the loop breaks at once. */
  lemma NoTermsBreak(keywords: seq<string>)
    requires |keywords| > 0
    ensures KeywordLoopBreaks(keywords, [])
  {
    assert !CloseToSomeTerm(keywords[0], []);
    assert !InsideSomeTerm(keywords[0], []);
  }

  /** Every domain of the table has four keywords. */
  lemma FourKeywords(domain: string)
    requires domain in DomainKeywords
    ensures |DomainKeywords[domain]| == 4
  {
  }

  /** The empty query gets the domain name appended. */
  lemma EmptyQueryAppends(domain: string)
    requires domain in DomainKeywords
    ensures WithDomain("", domain) == " " + Lower(domain)
  {
    FourKeywords(domain);
    NoTermsBreak(DomainKeywords[domain]);
    assert Words("") == [];
    DomainNameRewriteSafe(domain);
    assert !Contains(Lower(""), Lower(domain));
    assert "" + " " + Lower(domain) == " " + Lower(domain);
  }

  /* ---------------------------------------------------------------- */
  /* Normalising twice                                                 */
  /* ---------------------------------------------------------------- */

  /** Every lower-cased domain name of the keyword table is safe. */
  lemma DomainNameRewriteSafe(domain: string)
    requires domain in DomainKeywords
    ensures RewriteSafe(Lower(domain))
  {
    if domain == "Medicine" {
      SafeMedicine();
    } else if domain == "Computer Science" {
      SafeComputerScience();
    } else if domain == "Artificial Intelligence" {
      SafeArtificialIntelligence();
    } else if domain == "Machine Learning" {
      SafeMachineLearning();
    } else if domain == "Data Science" {
      SafeDataScience();
    } else if domain == "Robotics" {
      SafeRobotics();
    } else {
      SafeNaturalLanguageProcessing();
    }
  }

  /** No occurrence of the pair `ab` overlaps an occurrence of a safe `x`. */
  lemma PairNoOverlap(s: string, x: string, k: int, a: char, b: char)
    requires OccursAt(x, s, k) && |x| > 0
    requires !HasPair(x, a, b) && x[0] != b && x[|x| - 1] != a
    ensures forall i :: k - |[a, b]| < i < k + |x| ==> !OccursAt([a, b], s, i)
  {
    forall i | k - 2 < i < k + |x| ensures !OccursAt([a, b], s, i) {
      if 0 <= i && i + 2 <= |s| {
        assert s[i..i + 2][0] == s[i] && s[i..i + 2][1] == s[i + 1];
        if i == k - 1 {
          assert s[i + 1] == x[0];
        } else if i == k + |x| - 1 {
          assert s[i] == x[|x| - 1];
        } else {
          assert s[i] == x[i - k] && s[i + 1] == x[i - k + 1];
        }
      }
    }
  }

  /** The abbreviation expansion keeps an occurrence of a safe string. */
  lemma ExpansionKeepsSafe(s: string, x: string, k: int)
    requires OccursAt(x, s, k) && RewriteSafe(x)
    ensures Contains(ExpandAbbreviations(s), x)
  {
    var terms := Words(s);
    if "ai" in terms || "ml" in terms {
      PairNoOverlap(s, x, k, 'a', 'i');
      ReplaceKeepsOccurrence(s, "ai", "artificial intelligence", x, k);
      var s1 := ReplaceAll(s, "ai", "artificial intelligence");
      var k1 :| 0 <= k1 <= |s1| - |x| && OccursAt(x, s1, k1);
      PairNoOverlap(s1, x, k1, 'm', 'l');
      ReplaceKeepsOccurrence(s1, "ml", "machine learning", x, k1);
    } else {
      assert OccursAt(x, s, k);
    }
  }

  /** After the domain rule, the query holds the lower-cased domain name
      when the rule fired or the name was already there. */
  lemma WithDomainHoldsName(q: string, domain: string)
    requires AppendsDomain(q, domain) || Contains(q, Lower(domain))
    ensures Contains(WithDomain(q, domain), Lower(domain))
  {
    var x := Lower(domain);
    if AppendsDomain(q, domain) {
      var r := q + " " + x;
      assert r[|q| + 1..|q| + 1 + |x|] == x;
      assert OccursAt(x, r, |q| + 1);
    }
  }

  /** After a normalisation that appended the domain name, or kept one
      already there, the result holds the lower-cased domain name. */
  lemma NormalisedHoldsDomain(query: string, domain: string)
    requires domain in DomainKeywords
    requires var q := Strip(Lower(query));
      AppendsDomain(q, domain) || Contains(q, Lower(domain))
    ensures Contains(Preprocess(query, domain), Lower(domain))
  {
    var x := Lower(domain);
    DomainNameRewriteSafe(domain);
    var q' := WithDomain(Strip(Lower(query)), domain);
    WithDomainHoldsName(Strip(Lower(query)), domain);
    var k :| 0 <= k <= |q'| - |x| && OccursAt(x, q', k);
    ExpansionKeepsSafe(q', x, k);
  }

  /** A lower-case string that is safe stays in the query through the
      lower-casing and stripping of a second normalisation. */
  lemma SafeSurvivesLowerStrip(p: string, x: string)
    requires Contains(p, x) && RewriteSafe(x) && IsLowerCase(x)
    ensures Contains(Lower(Strip(Lower(p))), x)
  {
    var j :| 0 <= j <= |p| - |x| && OccursAt(x, p, j);
    LowerKeepsOccurrence(x, p, j);
    StripKeepsOccurrence(x, Lower(p), j);
    var q2 := Strip(Lower(p));
    StripKeepsLowerCase(Lower(p));
    assert Lower(q2) == q2;
  }

  /** Normalising again, with the same domain, a query whose first
      normalisation appended the domain name (or already held it) appends
      nothing the second time. */
  lemma RenormalisingDoesNotAppendAgain(query: string, domain: string)
    requires var q := Strip(Lower(query));
      AppendsDomain(q, domain) || Contains(q, Lower(domain))
    ensures !AppendsDomain(Strip(Lower(Preprocess(query, domain))), domain)
  {
    if domain in DomainKeywords {
      NormalisedHoldsDomain(query, domain);
      DomainNameRewriteSafe(domain);
      SafeSurvivesLowerStrip(Preprocess(query, domain), Lower(domain));
    }
  }
}

=== FILE: ranking.dfy ===
/** `_filter_and_rank_results`: every adapter result is scored against the
    original query and the domain, results with a positive score are kept,
    and they are sorted by score, highest first, keeping the input order
    among equal scores (Python's `sort` is stable, also with
    `reverse=True`).

    The date arithmetic is a parameter: `daysOld` maps the first ten
    characters of `published` to the age in whole days, or to `None` when
    they do not parse as a `%Y-%m-%d` date. */
module Ranking {
  import opened Wrappers
  import opened Strings
  import opened Publications

  /* ---------------------------------------------------------------- */
  /* Term sets                                                         */
  /* ---------------------------------------------------------------- */

  /** `set(text.lower().split())`. */
  function TermSet(text: string): set<string> {
    set t | t in Words(Lower(text))
  }

  /** The terms of `terms` that occur in `text`. */
  function Hits(terms: set<string>, text: string): set<string> {
    set t | t in terms && Contains(text, t)
  }

  /** The two loops of the scoring: `wTitle` points for each term inside
      the title, `wSummary` for each term inside the summary. */
  function TermPoints(terms: seq<string>, title: string, summary: string, wTitle: nat, wSummary: nat): nat
    decreases |terms|
  {
    if |terms| == 0 then 0
    else
      (if Contains(title, terms[0]) then wTitle else 0)
      + (if Contains(summary, terms[0]) then wSummary else 0)
      + TermPoints(terms[1..], title, summary, wTitle, wSummary)
  }

  /** The loops count each distinct term once: the points are the weights
      times the number of terms hitting each text, whatever the iteration
      order of the set. */
  lemma {:induction false} TermPointsCount(terms: seq<string>, title: string, summary: string, wTitle: nat, wSummary: nat)
    requires NoDuplicates(terms)
    ensures var ts := set t | t in terms;
      TermPoints(terms, title, summary, wTitle, wSummary)
        == wTitle * |Hits(ts, title)| + wSummary * |Hits(ts, summary)|
    decreases |terms|
  {
    var ts := set t | t in terms;
    if |terms| == 0 {
      assert Hits(ts, title) == {} && Hits(ts, summary) == {};
    } else {
      var rs := set t | t in terms[1..];
      TailSet(terms);
      TermPointsCount(terms[1..], title, summary, wTitle, wSummary);
      HitsAdd(terms[0], rs, title);
      HitsAdd(terms[0], rs, summary);
      Weighted(wTitle, Contains(title, terms[0]), |Hits(rs, title)|);
      Weighted(wSummary, Contains(summary, terms[0]), |Hits(rs, summary)|);
    }
  }

  /** Removing the head of a duplicate-free list removes exactly it from
      the list's set. */
  lemma TailSet(terms: seq<string>)
    requires NoDuplicates(terms) && |terms| > 0
    ensures NoDuplicates(terms[1..])
    ensures terms[0] !in (set t | t in terms[1..])
    ensures (set t | t in terms) == {terms[0]} + (set t | t in terms[1..])
  {
    var rest := terms[1..];
    forall i | 0 <= i < |rest| ensures rest[i] != terms[0] {
      assert rest[i] == terms[i + 1];
    }
    assert terms == [terms[0]] + rest;
  }

  lemma Weighted(w: nat, hit: bool, n: nat)
    ensures w * ((if hit then 1 else 0) + n) == (if hit then w else 0) + w * n
  {
  }

  lemma HitsAdd(t0: string, rs: set<string>, text: string)
    requires t0 !in rs
    ensures |Hits({t0} + rs, text)| == (if Contains(text, t0) then 1 else 0) + |Hits(rs, text)|
  {
    if Contains(text, t0) {
      assert Hits({t0} + rs, text) == {t0} + Hits(rs, text);
    } else {
      assert Hits({t0} + rs, text) == Hits(rs, text);
    }
  }

  /* ---------------------------------------------------------------- */
  /* Score                                                             */
  /* ---------------------------------------------------------------- */

  /** `max(0, 1 - days_old / 365)`, and `0` when the date does not parse. */
  function RecencyBonus(days: Option<int>): (r: real)
    ensures r >= 0.0
    ensures days.None? ==> r == 0.0
  {
    match days
    case None => 0.0
    case Some(d) =>
      var x := 1.0 - (d as real) / 365.0;
      if x > 0.0 then x else 0.0
  }

  /** The bonus of a parsed date: `1` for today, falling linearly to `0` at
      365 days and staying there; a date in the future earns more than `1`. */
  lemma RecencyBonusShape(d: int)
    ensures d >= 365 ==> RecencyBonus(Some(d)) == 0.0
    ensures 0 <= d <= 365 ==> RecencyBonus(Some(d)) <= 1.0
    ensures d == 0 ==> RecencyBonus(Some(d)) == 1.0
    ensures d < 0 ==> RecencyBonus(Some(d)) > 1.0
  {
  }

  /** An older paper never earns a larger bonus. */
  lemma RecencyBonusMonotone(d1: int, d2: int)
    requires d1 <= d2
    ensures RecencyBonus(Some(d2)) <= RecencyBonus(Some(d1))
  {
  }

  /** The score of one result against the original query and the domain. */
  function Score(raw: RawResult, query: string, domain: string, daysOld: string -> Option<int>): real {
    var title := Lower(raw.title);
    var summary := Lower(raw.summary);
    (TermPoints(Distinct(Words(Lower(query))), title, summary, 5, 2)
      + TermPoints(Distinct(Words(Lower(domain))), title, summary, 3, 1)) as real
      + RecencyBonus(daysOld(PyTake(raw.published, 10)))
  }

  /** The score formula: 5 per distinct query term inside the lower-cased
      title, 2 per one inside the lower-cased summary, 3 and 1 for the
      distinct words of the domain name, plus the recency bonus of the
      first ten characters of `published`. */
  lemma ScoreFormula(raw: RawResult, query: string, domain: string, daysOld: string -> Option<int>)
    ensures var title, summary := Lower(raw.title), Lower(raw.summary);
      var qs, ds := TermSet(query), TermSet(domain);
      Score(raw, query, domain, daysOld)
        == (5 * |Hits(qs, title)| + 2 * |Hits(qs, summary)|
            + 3 * |Hits(ds, title)| + |Hits(ds, summary)|) as real
           + RecencyBonus(daysOld(PyTake(raw.published, 10)))
  {
    var title, summary := Lower(raw.title), Lower(raw.summary);
    var qt, dt := Distinct(Words(Lower(query))), Distinct(Words(Lower(domain)));
    TermPointsCount(qt, title, summary, 5, 2);
    TermPointsCount(dt, title, summary, 3, 1);
    assert (set t | t in qt) == TermSet(query);
    assert (set t | t in dt) == TermSet(domain);
  }

  /** A result is dropped exactly when no query or domain term is inside
      its title or summary and its date earns no bonus. */
  lemma ZeroScoreMeansNoEvidence(raw: RawResult, query: string, domain: string, daysOld: string -> Option<int>)
    ensures var title, summary := Lower(raw.title), Lower(raw.summary);
      var ts := TermSet(query) + TermSet(domain);
      (Score(raw, query, domain, daysOld) > 0.0)
        <==> (|| Hits(ts, title) != {} || Hits(ts, summary) != {}
              || RecencyBonus(daysOld(PyTake(raw.published, 10))) > 0.0)
  {
    ScoreFormula(raw, query, domain, daysOld);
    var title, summary := Lower(raw.title), Lower(raw.summary);
    var qs, ds := TermSet(query), TermSet(domain);
    assert Hits(qs + ds, title) == Hits(qs, title) + Hits(ds, title);
    assert Hits(qs + ds, summary) == Hits(qs, summary) + Hits(ds, summary);
  }

  /** The publication dictionary built for one result. */
  function ToPublication(raw: RawResult, domain: string, score: real): (p: Publication)
    ensures p.domain == domain && p.score == score
  {
    Publication(raw.title, raw.authors, raw.summary, raw.link, raw.published, raw.source, domain, score)
  }

  /** Every result, scored, in input order. */
  function Scored(results: seq<RawResult>, query: string, domain: string, daysOld: string -> Option<int>): (r: seq<Publication>)
    ensures |r| == |results|
    ensures forall i :: 0 <= i < |r| ==>
      r[i] == ToPublication(results[i], domain, Score(results[i], query, domain, daysOld))
  {
    seq(|results|, i requires 0 <= i < |results| =>
      ToPublication(results[i], domain, Score(results[i], query, domain, daysOld)))
  }

  lemma ScoredConcat(a: seq<RawResult>, b: seq<RawResult>, query: string, domain: string, daysOld: string -> Option<int>)
    ensures Scored(a + b, query, domain, daysOld) == Scored(a, query, domain, daysOld) + Scored(b, query, domain, daysOld)
  {
  }

  /* ---------------------------------------------------------------- */
  /* Stable sort, highest score first                                  */
  /* ---------------------------------------------------------------- */

  predicate SortedDesc(s: seq<Publication>) {
    forall i, j :: 0 <= i < j < |s| ==> s[i].score >= s[j].score
  }

  predicate Positive(p: Publication) { p.score > 0.0 }

  predicate HasScore(p: Publication, v: real) { p.score == v }

  /** The publications of score exactly `v`, in order. */
  function WithScore(s: seq<Publication>, v: real): seq<Publication> {
    Filter(p => HasScore(p, v), s)
  }

  /** Places `x` in front of the first element whose score is not
      higher, so it follows every strictly better one and precedes the
      equal ones (which came later in the input). */
  function Insert(x: Publication, s: seq<Publication>): (r: seq<Publication>)
    ensures |r| == |s| + 1
    ensures multiset(r) == multiset(s) + multiset{x}
    ensures forall y :: y in r <==> y == x || y in s
    decreases |s|
  {
    if |s| == 0 || s[0].score <= x.score then [x] + s
    else
      assert s == [s[0]] + s[1..];
      [s[0]] + Insert(x, s[1..])
  }

  /** Insertion sort from the back of the list. */
  function SortByScore(s: seq<Publication>): (r: seq<Publication>)
    ensures |r| == |s|
    ensures multiset(r) == multiset(s)
    decreases |s|
  {
    if |s| == 0 then []
    else
      var rest := SortByScore(s[1..]);
      assert s == [s[0]] + s[1..];
      Insert(s[0], rest)
  }

  lemma {:induction false} InsertSorted(x: Publication, s: seq<Publication>)
    requires SortedDesc(s)
    ensures SortedDesc(Insert(x, s))
    decreases |s|
  {
    if |s| > 0 && s[0].score > x.score {
      InsertSorted(x, s[1..]);
      var r := Insert(x, s[1..]);
      assert forall y :: y in r ==> y.score <= s[0].score;
      assert Insert(x, s) == [s[0]] + r;
    }
  }

  lemma {:induction false} SortSorted(s: seq<Publication>)
    ensures SortedDesc(SortByScore(s))
    decreases |s|
  {
    if |s| > 0 {
      SortSorted(s[1..]);
      InsertSorted(s[0], SortByScore(s[1..]));
    }
  }

  lemma {:induction false} InsertStable(x: Publication, s: seq<Publication>, v: real)
    requires SortedDesc(s)
    ensures WithScore(Insert(x, s), v) == (if x.score == v then [x] else []) + WithScore(s, v)
    decreases |s|
  {
    if |s| > 0 && s[0].score > x.score {
      InsertStable(x, s[1..], v);
      assert ([s[0]] + Insert(x, s[1..]))[1..] == Insert(x, s[1..]);
    } else {
      assert ([x] + s)[1..] == s;
    }
  }

  /** The sort keeps the relative order of publications with equal
      scores: for every score value, the publications with that score
      appear in the output in the same order as in the input. */
  lemma {:induction false} SortStable(s: seq<Publication>, v: real)
    ensures WithScore(SortByScore(s), v) == WithScore(s, v)
    decreases |s|
  {
    if |s| > 0 {
      SortStable(s[1..], v);
      SortSorted(s[1..]);
      InsertStable(s[0], SortByScore(s[1..]), v);
    }
  }

  /* ---------------------------------------------------------------- */
  /* The whole ranking                                                 */
  /* ---------------------------------------------------------------- */

  /** `_filter_and_rank_results`. */
  function Rank(results: seq<RawResult>, query: string, domain: string, daysOld: string -> Option<int>): (r: seq<Publication>)
    ensures |r| <= |results|
  {
    var kept := Filter(Positive, Scored(results, query, domain, daysOld));
    SortByScore(kept)
  }

  /** The ranked list holds exactly the positively scored results (as a
      multiset), each carrying the caller's domain and the score of its
      result against the original query; it is sorted highest first, and
      among equal scores it keeps the input order. */
  lemma RankSpec(results: seq<RawResult>, query: string, domain: string, daysOld: string -> Option<int>)
    ensures var r := Rank(results, query, domain, daysOld);
      var kept := Filter(Positive, Scored(results, query, domain, daysOld));
      && SortedDesc(r)
      && multiset(r) == multiset(kept)
      && (forall p :: p in r ==> p.score > 0.0 && p.domain == domain)
      && (forall p :: p in r ==>
            (exists i :: 0 <= i < |results|
               && p == ToPublication(results[i], domain, Score(results[i], query, domain, daysOld))))
      && (forall v :: WithScore(r, v) == WithScore(kept, v))
  {
    var r := Rank(results, query, domain, daysOld);
    var sc := Scored(results, query, domain, daysOld);
    var kept := Filter(Positive, sc);
    SortSorted(kept);
    forall v ensures WithScore(r, v) == WithScore(kept, v) {
      SortStable(kept, v);
    }
    forall p | p in r ensures p in kept {
      assert p in multiset(r);
    }
  }

  /** Filtering by score value commutes with filtering positives. */
  lemma {:induction false} WithScoreOfPositive(s: seq<Publication>, v: real)
    requires v > 0.0
    ensures WithScore(Filter(Positive, s), v) == WithScore(s, v)
    decreases |s|
  {
    if |s| > 0 {
      WithScoreOfPositive(s[1..], v);
      if Positive(s[0]) {
        assert ([s[0]] + Filter(Positive, s[1..]))[1..] == Filter(Positive, s[1..]);
      }
    }
  }

  /** Ranking the concatenation of several adapters' results keeps, among
      equal scores, every result of the first list before those of the
      second. */
  lemma TiesFollowConcatenation(a: seq<RawResult>, b: seq<RawResult>, query: string, domain: string,
                                daysOld: string -> Option<int>, v: real)
    requires v > 0.0
    ensures WithScore(Rank(a + b, query, domain, daysOld), v)
         == WithScore(Scored(a, query, domain, daysOld), v) + WithScore(Scored(b, query, domain, daysOld), v)
  {
    var sa, sb := Scored(a, query, domain, daysOld), Scored(b, query, domain, daysOld);
    ScoredConcat(a, b, query, domain, daysOld);
    RankSpec(a + b, query, domain, daysOld);
    WithScoreOfPositive(sa + sb, v);
    FilterConcat(p => HasScore(p, v), sa, sb);
  }
}

=== FILE: research_explore.dfy ===
/** The research explorer: `split_document_into_chunks`, and the loop of
    `semantic_search_llama` that asks the language model about one chunk at
    a time. The HTTP calls are a parameter: `ask(k, prompt)` is what the
    `k`-th call, sending `prompt`, gives back, or `None` when it raises. */
module ResearchExplore {
  import opened Wrappers
  import opened Strings

  /* ---------------------------------------------------------------- */
  /* Chunks                                                            */
  /* ---------------------------------------------------------------- */

  /** A chunk: non-empty, no whitespace at either end, one line. */
  predicate IsChunk(c: string) {
    |c| > 0 && IsStripped(c) && '\n' !in c
  }

  predicate NonBlank(c: string) { c != "" }

  /** Each line stripped. */
  function StripAll(lines: seq<string>): (r: seq<string>)
    ensures |r| == |lines| && forall i :: 0 <= i < |lines| ==> r[i] == Strip(lines[i])
    decreases |lines|
  {
    if |lines| == 0 then [] else [Strip(lines[0])] + StripAll(lines[1..])
  }

  /** The stripped non-blank lines, in order. */
  function ChunksOf(lines: seq<string>): (r: seq<string>)
    ensures |r| <= |lines|
    decreases |lines|
  {
    if |lines| == 0 then []
    else
      var c := Strip(lines[0]);
      if c != "" then [c] + ChunksOf(lines[1..]) else ChunksOf(lines[1..])
  }

  /** Lines without a newline give chunks. */
  lemma {:induction false} ChunksOfLines(lines: seq<string>)
    requires forall l :: l in lines ==> '\n' !in l
    ensures forall c :: c in ChunksOf(lines) ==> IsChunk(c)
    decreases |lines|
  {
    if |lines| > 0 {
      assert lines[0] in lines;
      StripWithin(lines[0], '\n');
      assert forall l :: l in lines[1..] ==> l in lines;
      ChunksOfLines(lines[1..]);
    }
  }

  /** `split_document_into_chunks`. */
  function SplitIntoChunks(document: string): (r: seq<string>)
    ensures forall c :: c in r ==> IsChunk(c)
    ensures |r| <= 1 + CountChar(document, '\n')
  {
    ChunksOfLines(SplitOn(document, '\n'));
    ChunksOf(SplitOn(document, '\n'))
  }

  /** The chunks are the stripped lines with the blank ones dropped. */
  lemma {:induction false} ChunksAreStrippedLines(lines: seq<string>)
    ensures ChunksOf(lines) == Filter(NonBlank, StripAll(lines))
    decreases |lines|
  {
    if |lines| > 0 {
      ChunksAreStrippedLines(lines[1..]);
      assert StripAll(lines)[1..] == StripAll(lines[1..]);
    }
  }

  lemma {:induction false} ChunksOfChunks(cs: seq<string>)
    requires forall c :: c in cs ==> IsChunk(c)
    ensures ChunksOf(cs) == cs
    decreases |cs|
  {
    if |cs| > 0 {
      assert cs[0] in cs;
      StripOfStripped(cs[0]);
      ChunksOfChunks(cs[1..]);
    }
  }

  /** Chunks joined with newlines split back into the same chunks. */
  lemma ChunksRoundTrip(cs: seq<string>)
    requires forall c :: c in cs ==> IsChunk(c)
    ensures SplitIntoChunks(Join(cs, "\n")) == cs
  {
    if |cs| == 0 {
      assert SplitOn("", '\n') == [""];
    } else {
      SplitJoin(cs, '\n');
      ChunksOfChunks(cs);
    }
  }

  /** Splitting is idempotent on its own output. */
  lemma ChunkingIdempotent(document: string)
    ensures var cs := SplitIntoChunks(document);
      SplitIntoChunks(Join(cs, "\n")) == cs
  {
    ChunksRoundTrip(SplitIntoChunks(document));
  }

  /* ---------------------------------------------------------------- */
  /* Asking about each chunk                                           */
  /* ---------------------------------------------------------------- */

  /** The status of the response and the content of its first choice. */
  datatype Reply = Reply(status: int, content: string)

  /** The user message sent for one chunk. */
  function Prompt(query: string, chunk: string): (p: string)
    ensures query <= p
  {
    query + " in context: " + chunk
  }

  /** The outcome of the `k`-th call, the one about chunk `k`: `None` when
      the call raises (the request fails, or a 200 body is not JSON with a
      first choice whose content is a string). Calls are told apart by
      their position, so two equal chunks may get different replies. */
  function Call(query: string, chunks: seq<string>, ask: (nat, string) -> Option<Reply>, k: nat): Option<Reply>
    requires k < |chunks|
  {
    ask(k, Prompt(query, chunks[k]))
  }

  /** Call `k` came back with status 200. */
  predicate Answered(query: string, chunks: seq<string>, ask: (nat, string) -> Option<Reply>, k: nat)
    requires k < |chunks|
  {
    Call(query, chunks, ask, k).Some? && Call(query, chunks, ask, k).value.status == 200
  }

  /** The stripped answers of the first `n` calls. */
  function Answers(query: string, chunks: seq<string>, ask: (nat, string) -> Option<Reply>, n: nat): (rs: seq<string>)
    requires n <= |chunks|
    ensures |rs| == n
  {
    seq(n, k requires 0 <= k < n =>
      match Call(query, chunks, ask, k)
      case Some(reply) => Strip(reply.content)
      case None => "")
  }

  /** One more answered call adds its stripped answer at the end. */
  lemma AnswersSnoc(query: string, chunks: seq<string>, ask: (nat, string) -> Option<Reply>, n: nat)
    requires n < |chunks| && Call(query, chunks, ask, n).Some?
    ensures Answers(query, chunks, ask, n + 1)
         == Answers(query, chunks, ask, n) + [Strip(Call(query, chunks, ask, n).value.content)]
  {
    var longer, shorter := Answers(query, chunks, ask, n + 1), Answers(query, chunks, ask, n);
    forall k | 0 <= k < n ensures longer[k] == shorter[k] {
    }
  }

  /** The outcome of a call that raises after `n` answered calls. */
  lemma RaisedCollection(query: string, chunks: seq<string>, maxResults: int, ask: (nat, string) -> Option<Reply>, n: nat)
    requires n < |chunks| && n < Max(1, maxResults)
    requires forall k :: 0 <= k < n ==> Answered(query, chunks, ask, k)
    requires Call(query, chunks, ask, n).None?
    ensures IsCollection(query, chunks, maxResults, ask, None)
  {
  }

  /** The outcome `r` is what the loop of `semantic_search_llama` gives:
      calls go out one chunk at a time, in chunk order. The loop stops at
      the end of the chunks, once `maxResults` answers are in (at least one
      is always taken), or at the first reply that is not 200, and then
      returns one stripped answer per 200 reply. A call that raises before
      that ends the function with the exception, `None`. */
  predicate IsCollection(query: string, chunks: seq<string>, maxResults: int, ask: (nat, string) -> Option<Reply>,
                         r: Option<seq<string>>) {
    match r
    case Some(rs) =>
      var n := |rs|;
      && n <= |chunks|
      && n <= Max(1, maxResults)
      && (forall k :: 0 <= k < n ==> Answered(query, chunks, ask, k))
      && rs == Answers(query, chunks, ask, n)
      && (n == |chunks| || n >= Max(1, maxResults)
          || (Call(query, chunks, ask, n).Some? && Call(query, chunks, ask, n).value.status != 200))
    case None =>
      exists n :: 0 <= n < |chunks| && n < Max(1, maxResults)
        && (forall k :: 0 <= k < n ==> Answered(query, chunks, ask, k))
        && Call(query, chunks, ask, n).None?
  }

  /** The loop of `semantic_search_llama`. */
  method CollectAnswers(query: string, chunks: seq<string>, maxResults: int, ask: (nat, string) -> Option<Reply>)
    returns (outcome: Option<seq<string>>)
    ensures IsCollection(query, chunks, maxResults, ask, outcome)
  {
    var results := [];
    var i := 0;
    while i < |chunks|
      invariant i == |results| <= |chunks|
      invariant i == 0 || i < maxResults
      invariant forall k :: 0 <= k < i ==> Answered(query, chunks, ask, k)
      invariant results == Answers(query, chunks, ask, i)
    {
      var reply := ask(i, Prompt(query, chunks[i]));
      if reply.None? {
        RaisedCollection(query, chunks, maxResults, ask, i);
        return None;
      }
      if reply.value.status == 200 {
        AnswersSnoc(query, chunks, ask, i);
        results := results + [Strip(reply.value.content)];
        i := i + 1;
        if |results| >= maxResults {
          break;
        }
      } else {
        break;
      }
    }
    return Some(results);
  }

  /** The first call position from `k` on at which the loop stops: the end
      of the chunks, the answer limit, or a call not answered 200. */
  function StopFrom(query: string, chunks: seq<string>, maxResults: int, ask: (nat, string) -> Option<Reply>, k: nat): (n: nat)
    requires k <= |chunks|
    ensures k <= n <= |chunks|
    decreases |chunks| - k
  {
    if k == |chunks| || k >= Max(1, maxResults) || !Answered(query, chunks, ask, k) then k
    else StopFrom(query, chunks, maxResults, ask, k + 1)
  }

  /** A stop point with every call before it answered is where `StopFrom`
      stops. */
  lemma {:induction false} StopFromIs(query: string, chunks: seq<string>, maxResults: int, ask: (nat, string) -> Option<Reply>,
                                      k: nat, n: nat)
    requires k <= n <= |chunks| && n <= Max(1, maxResults)
    requires forall j :: k <= j < n ==> Answered(query, chunks, ask, j)
    requires n == |chunks| || n >= Max(1, maxResults) || !Answered(query, chunks, ask, n)
    ensures StopFrom(query, chunks, maxResults, ask, k) == n
    decreases n - k
  {
    if k < n {
      StopFromIs(query, chunks, maxResults, ask, k + 1, n);
    }
  }

  /** Where the loop stops decides the outcome: the answers to the calls
      before the stop point, or the exception of the call at it. */
  lemma CollectionStops(query: string, chunks: seq<string>, maxResults: int, ask: (nat, string) -> Option<Reply>,
                        r: Option<seq<string>>)
    requires IsCollection(query, chunks, maxResults, ask, r)
    ensures var n := StopFrom(query, chunks, maxResults, ask, 0);
      && (r.Some? ==>
            && r.value == Answers(query, chunks, ask, n)
            && (n < |chunks| && n < Max(1, maxResults) ==> Call(query, chunks, ask, n).Some?))
      && (r.None? ==> n < |chunks| && n < Max(1, maxResults) && Call(query, chunks, ask, n).None?)
  {
    match r
    case Some(rs) =>
      StopFromIs(query, chunks, maxResults, ask, 0, |rs|);
    case None =>
      var n :| 0 <= n < |chunks| && n < Max(1, maxResults)
        && (forall k :: 0 <= k < n ==> Answered(query, chunks, ask, k))
        && Call(query, chunks, ask, n).None?;
      StopFromIs(query, chunks, maxResults, ask, 0, n);
  }

  /** The outcome is determined by the chunks and the replies. */
  lemma CollectionUnique(query: string, chunks: seq<string>, maxResults: int, ask: (nat, string) -> Option<Reply>,
                         r1: Option<seq<string>>, r2: Option<seq<string>>)
    requires IsCollection(query, chunks, maxResults, ask, r1)
    requires IsCollection(query, chunks, maxResults, ask, r2)
    ensures r1 == r2
  {
    CollectionStops(query, chunks, maxResults, ask, r1);
    CollectionStops(query, chunks, maxResults, ask, r2);
  }

  /** A reply other than 200 to call `k`, with every earlier call answered
      200 and fewer than `maxResults` answers before it, ends the loop with
      exactly the answers to the calls before `k`. */
  lemma StopsAtFirstFailure(query: string, chunks: seq<string>, maxResults: int, ask: (nat, string) -> Option<Reply>,
                            r: Option<seq<string>>, k: nat)
    requires IsCollection(query, chunks, maxResults, ask, r)
    requires k < |chunks| && k < Max(1, maxResults)
    requires forall j :: 0 <= j < k ==> Answered(query, chunks, ask, j)
    requires Call(query, chunks, ask, k).Some? && Call(query, chunks, ask, k).value.status != 200
    ensures r == Some(Answers(query, chunks, ask, k))
  {
    StopFromIs(query, chunks, maxResults, ask, 0, k);
    CollectionStops(query, chunks, maxResults, ask, r);
  }

  /** A call that raises, with every earlier call answered 200 and fewer
      than `maxResults` answers before it, ends the whole function with the
      exception. */
  lemma RaiseEscapes(query: string, chunks: seq<string>, maxResults: int, ask: (nat, string) -> Option<Reply>,
                     r: Option<seq<string>>, k: nat)
    requires IsCollection(query, chunks, maxResults, ask, r)
    requires k < |chunks| && k < Max(1, maxResults)
    requires forall j :: 0 <= j < k ==> Answered(query, chunks, ask, j)
    requires Call(query, chunks, ask, k).None?
    ensures r.None?
  {
    StopFromIs(query, chunks, maxResults, ask, 0, k);
    CollectionStops(query, chunks, maxResults, ask, r);
  }
}

/** `export_document`'s file naming: the research topic is reduced to
    letters, digits, blanks and underscores, trailing whitespace is
    dropped, and the two files go to `exports` under the working
    directory. The files themselves are not part of this model. */
module ExportNames {
  import opened Strings

  /** `c.isalnum() or c in (' ', '_')`. */
  predicate IsAllowed(c: char) { IsAlnumAscii(c) || c == ' ' || c == '_' }

  /** The safe file name of a topic. */
  function SafeFilename(topic: string): (r: string)
    ensures forall i :: 0 <= i < |r| ==> IsAllowed(r[i])
    ensures |r| > 0 ==> r[|r| - 1] != ' '
    ensures r <= Filter(IsAllowed, topic) && IsBlank(Filter(IsAllowed, topic)[|r|..])
  {
    var kept := Filter(IsAllowed, topic);
    var r := TrimEnd(kept);
    assert forall i :: 0 <= i < |r| ==> r[i] == kept[i];
    assert forall i :: 0 <= i < |kept| ==> kept[i] in kept;
    TrimEndSplits(kept);
    r
  }

  /** A name of allowed characters that does not end in a blank is its
      own safe name. */
  lemma SafeKeepsSafeName(s: string)
    requires forall i :: 0 <= i < |s| ==> IsAllowed(s[i])
    requires |s| > 0 ==> s[|s| - 1] != ' '
    ensures SafeFilename(s) == s
  {
    FilterAllKept(s);
    assert |s| > 0 ==> !IsSpace(s[|s| - 1]);
  }

  /** The safe name keeps characters of the topic, in order. */
  lemma SafeIsSubsequence(topic: string)
    ensures IsSubsequence(SafeFilename(topic), topic)
  {
    var kept := Filter(IsAllowed, topic);
    FilterIsSubsequence(IsAllowed, topic);
    PrefixOfSubsequence(TrimEnd(kept), kept, topic);
  }

  lemma {:induction false} FilterAllKept(s: string)
    requires forall i :: 0 <= i < |s| ==> IsAllowed(s[i])
    ensures Filter(IsAllowed, s) == s
    decreases |s|
  {
    if |s| > 0 {
      FilterAllKept(s[1..]);
    }
  }

  /** Sanitising a safe name changes nothing. */
  lemma SafeIdempotent(topic: string)
    ensures SafeFilename(SafeFilename(topic)) == SafeFilename(topic)
  {
    SafeKeepsSafeName(SafeFilename(topic));
  }

  /** `os.path.join(a, b)` on POSIX for a relative `b`. */
  function PathJoin(a: string, b: string): (p: string)
    ensures |p| >= |b| && p[|p| - |b|..] == b
  {
    if b != [] && b[0] == '/' then b
    else if a == [] || a[|a| - 1] == '/' then a + b
    else a + "/" + b
  }

  function ExportDir(cwd: string): string {
    PathJoin(cwd, "exports")
  }

  function DocxPath(cwd: string, topic: string): string {
    PathJoin(ExportDir(cwd), SafeFilename(topic) + "_draft.docx")
  }

  function PdfPath(cwd: string, topic: string): string {
    PathJoin(ExportDir(cwd), SafeFilename(topic) + "_draft.pdf")
  }

  /** Both files sit in the same directory and are named after the same
      safe topic, `<safe>_draft.docx` and `<safe>_draft.pdf`. */
  lemma ExportPathsShareDirectory(cwd: string, topic: string)
    ensures var dir, safe := ExportDir(cwd), SafeFilename(topic);
      && DocxPath(cwd, topic) == dir + "/" + safe + "_draft.docx"
      && PdfPath(cwd, topic) == dir + "/" + safe + "_draft.pdf"
  {
    var dir, safe := ExportDir(cwd), SafeFilename(topic);
    assert dir[|dir| - 1] == 's';
    assert safe + "_draft.docx" != [] && (safe + "_draft.docx")[0] != '/' by {
      if |safe| > 0 {
        assert IsAllowed(safe[0]);
      }
    }
    assert (safe + "_draft.pdf")[0] != '/' by {
      if |safe| > 0 {
        assert IsAllowed(safe[0]);
      }
    }
    assert dir + "/" + (safe + "_draft.docx") == dir + "/" + safe + "_draft.docx";
    assert dir + "/" + (safe + "_draft.pdf") == dir + "/" + safe + "_draft.pdf";
  }

  /** A topic with no allowed character but blanks gives the bare name
      `_draft.docx`. */
  lemma BlankTopicName(topic: string)
    requires forall i :: 0 <= i < |topic| ==> !IsAllowed(topic[i]) || topic[i] == ' '
    ensures SafeFilename(topic) + "_draft.docx" == "_draft.docx"
  {
    var kept := Filter(IsAllowed, topic);
    assert forall c :: c in kept ==> c == ' ';
    assert forall i :: 0 <= i < |kept| ==> kept[i] in kept;
  }
}

=== FILE: search.dfy ===
/** `search_publications`: normalise the query, ask arXiv, Google Scholar
    and PubMed in that order, rank the concatenated results against the
    ORIGINAL query, and keep the first `limit`. The outside world is the
    environment `Env`; an exception that escapes a scraper reaches the
    handler of the whole search, which returns `[]`. */
module Search {
  import opened Wrappers
  import opened Strings
  import opened Publications
  import opened QueryNormalizer
  import opened Arxiv
  import opened Scrapers
  import opened Ranking

  /** The outside world of one search: what each request returns, and the
      age in days of a `published` prefix (`None` when it does not parse). */
  datatype Env = Env(
    arxiv: RequestParams -> ArxivReply,
    scholar: string -> Page,
    pubmed: string -> Page,
    daysOld: string -> Option<int>)

  /** The three adapters' results for the normalised query `q`,
      concatenated in source order, or `None` when a scraper raised. */
  function GatheredFrom(q: string, domain: string, limit: int, env: Env): (r: Option<seq<RawResult>>)
    ensures r.Some? <==> SearchScholar(q, limit, env.scholar).Some? && SearchPubmed(q, limit, env.pubmed).Some?
  {
    var g := SearchScholar(q, limit, env.scholar);
    var p := SearchPubmed(q, limit, env.pubmed);
    if g.Some? && p.Some? then Some(SearchArxiv(q, domain, limit, env.arxiv) + g.value + p.value)
    else None
  }

  function Gathered(query: string, domain: string, limit: int, env: Env): Option<seq<RawResult>> {
    GatheredFrom(Preprocess(query, domain), domain, limit, env)
  }

  lemma EmptyFirst<T>(a: seq<T>, b: seq<T>, c: seq<T>)
    requires a == []
    ensures a + b + c == b + c
  {
  }

  /** Without arXiv results (for any of the failures of
      `FailedRequestGivesNothing`), the gathered list is the scrapers'
      alone. */
  lemma GatheredWithoutArxiv(q: string, domain: string, limit: int, env: Env)
    requires SearchArxiv(q, domain, limit, env.arxiv) == []
    requires SearchScholar(q, limit, env.scholar).Some? && SearchPubmed(q, limit, env.pubmed).Some?
    ensures GatheredFrom(q, domain, limit, env)
         == Some(SearchScholar(q, limit, env.scholar).value + SearchPubmed(q, limit, env.pubmed).value)
  {
    var g, p := SearchScholar(q, limit, env.scholar).value, SearchPubmed(q, limit, env.pubmed).value;
    var a := SearchArxiv(q, domain, limit, env.arxiv);
    assert GatheredFrom(q, domain, limit, env) == Some(a + g + p);
    EmptyFirst(a, g, p);
  }

  /** The search once the query `q` is normalised: rank the gathered
      results against the original `query` and keep the first `limit`. */
  function SearchFrom(q: string, query: string, domain: string, limit: int, env: Env): (r: seq<Publication>)
    ensures limit >= 0 ==> |r| <= limit
    ensures GatheredFrom(q, domain, limit, env).None? ==> r == []
    ensures GatheredFrom(q, domain, limit, env).Some? ==>
      var ranked := Rank(GatheredFrom(q, domain, limit, env).value, query, domain, env.daysOld);
      && r <= ranked
      && (limit >= 0 ==> |r| == Min(limit, |ranked|))
      && (limit < 0 ==> |r| == Max(0, |ranked| + limit))
  {
    match GatheredFrom(q, domain, limit, env)
    case None => []
    case Some(all) => PyTake(Rank(all, query, domain, env.daysOld), limit)
  }

  /** `search_publications`: nothing when a scraper raised; otherwise the
      first `limit` items of the ranking of everything gathered, so a
      search that found positively scored results returns some of them. */
  function SearchPublications(query: string, domain: string, limit: int, env: Env): (r: seq<Publication>)
    ensures limit >= 0 ==> |r| <= limit
    ensures Gathered(query, domain, limit, env).None? ==> r == []
    ensures Gathered(query, domain, limit, env).Some? ==>
      var ranked := Rank(Gathered(query, domain, limit, env).value, query, domain, env.daysOld);
      && r <= ranked
      && (limit >= 0 ==> |r| == Min(limit, |ranked|))
      && (limit < 0 ==> |r| == Max(0, |ranked| + limit))
  {
    SearchFrom(Preprocess(query, domain), query, domain, limit, env)
  }

  /** A failure in either scraper, on any block of its page, empties the
      whole search, whatever arXiv returned. */
  lemma ScraperFailureEmptiesSearch(query: string, domain: string, limit: int, env: Env)
    requires var q := Preprocess(query, domain);
      SearchScholar(q, limit, env.scholar).None? || SearchPubmed(q, limit, env.pubmed).None?
    ensures SearchPublications(query, domain, limit, env) == []
  {
    var q := Preprocess(query, domain);
    assert GatheredFrom(q, domain, limit, env).None?;
  }

  /** An arXiv failure of any kind is isolated: the search goes on with
      the two scrapers' results alone. */
  lemma ArxivFailureIsolated(query: string, domain: string, limit: int, env: Env)
    requires SearchArxiv(Preprocess(query, domain), domain, limit, env.arxiv) == []
    requires var q := Preprocess(query, domain);
      SearchScholar(q, limit, env.scholar).Some? && SearchPubmed(q, limit, env.pubmed).Some?
    ensures var q := Preprocess(query, domain);
      SearchPublications(query, domain, limit, env)
        == PyTake(Rank(SearchScholar(q, limit, env.scholar).value + SearchPubmed(q, limit, env.pubmed).value,
                       query, domain, env.daysOld), limit)
  {
    GatheredWithoutArxiv(Preprocess(query, domain), domain, limit, env);
  }

  /** Every kind of arXiv failure leaves the search ranking the scrapers'
      results alone. */
  lemma EveryArxivFailureIsolated(query: string, domain: string, limit: int, env: Env)
    requires var reply := env.arxiv(Params(Preprocess(query, domain), domain, limit));
      || reply.RequestFailed?
      || reply.status != 200
      || reply.feed.None?
      || exists i :: 0 <= i < |reply.feed.value| && !WellFormed(reply.feed.value[i])
    requires var q := Preprocess(query, domain);
      SearchScholar(q, limit, env.scholar).Some? && SearchPubmed(q, limit, env.pubmed).Some?
    ensures var q := Preprocess(query, domain);
      SearchPublications(query, domain, limit, env)
        == PyTake(Rank(SearchScholar(q, limit, env.scholar).value + SearchPubmed(q, limit, env.pubmed).value,
                       query, domain, env.daysOld), limit)
  {
    FailedRequestGivesNothing(Preprocess(query, domain), domain, limit, env.arxiv);
    ArxivFailureIsolated(query, domain, limit, env);
  }

  /** The properties of `SearchResultsRanked`, for any normalised query. */
  lemma RankedFrom(q: string, query: string, domain: string, limit: int, env: Env)
    ensures var r := SearchFrom(q, query, domain, limit, env);
      && SortedDesc(r)
      && (forall p :: p in r ==> p.score > 0.0 && p.domain == domain)
      && (r != [] ==> GatheredFrom(q, domain, limit, env).Some?)
      && (GatheredFrom(q, domain, limit, env).Some? ==>
            var all := GatheredFrom(q, domain, limit, env).value;
            forall p :: p in r ==>
              (exists i :: 0 <= i < |all|
                 && p == ToPublication(all[i], domain, Score(all[i], query, domain, env.daysOld))))
  {
    match GatheredFrom(q, domain, limit, env)
    case None =>
    case Some(all) =>
      TopOfRanking(all, query, domain, env.daysOld, limit);
  }

  /** The first `limit` items of a ranking keep the ranking's guarantees. */
  lemma TopOfRanking(all: seq<RawResult>, query: string, domain: string, daysOld: string -> Option<int>, limit: int)
    ensures var r := PyTake(Rank(all, query, domain, daysOld), limit);
      && SortedDesc(r)
      && (forall p :: p in r ==> p.score > 0.0 && p.domain == domain)
      && (forall p :: p in r ==>
            (exists i :: 0 <= i < |all|
               && p == ToPublication(all[i], domain, Score(all[i], query, domain, daysOld))))
  {
    var ranked := Rank(all, query, domain, daysOld);
    RankSpec(all, query, domain, daysOld);
    var r := PyTake(ranked, limit);
    assert forall p :: p in r ==> p in ranked;
  }

  /** What comes back is the start of a list sorted highest score first,
      every item has a positive score, the caller's domain, and the score
      of a gathered result against the original (not the normalised)
      query. */
  lemma SearchResultsRanked(query: string, domain: string, limit: int, env: Env)
    ensures var r := SearchPublications(query, domain, limit, env);
      && SortedDesc(r)
      && (forall p :: p in r ==> p.score > 0.0 && p.domain == domain)
      && (r != [] ==> Gathered(query, domain, limit, env).Some?)
      && (Gathered(query, domain, limit, env).Some? ==>
            var all := Gathered(query, domain, limit, env).value;
            forall p :: p in r ==>
              (exists i :: 0 <= i < |all|
                 && p == ToPublication(all[i], domain, Score(all[i], query, domain, env.daysOld))))
  {
    RankedFrom(Preprocess(query, domain), query, domain, limit, env);
  }

  /** The tie order of `TiesOrderedBySource`, for any normalised query. */
  lemma TiesFrom(q: string, query: string, domain: string, limit: int, env: Env, v: real)
    requires v > 0.0
    requires GatheredFrom(q, domain, limit, env).Some?
    ensures var a := SearchArxiv(q, domain, limit, env.arxiv);
      var g := SearchScholar(q, limit, env.scholar).value;
      var p := SearchPubmed(q, limit, env.pubmed).value;
      var ranked := Rank(a + g + p, query, domain, env.daysOld);
      && SearchFrom(q, query, domain, limit, env) <= ranked
      && WithScore(ranked, v)
         == WithScore(Scored(a, query, domain, env.daysOld), v)
          + WithScore(Scored(g, query, domain, env.daysOld), v)
          + WithScore(Scored(p, query, domain, env.daysOld), v)
  {
    var a := SearchArxiv(q, domain, limit, env.arxiv);
    var g := SearchScholar(q, limit, env.scholar).value;
    var p := SearchPubmed(q, limit, env.pubmed).value;
    TiesOfThree(a, g, p, query, domain, env.daysOld, v);
  }

  /** Ranking three concatenated lists orders equal scores by list. */
  lemma TiesOfThree(a: seq<RawResult>, g: seq<RawResult>, p: seq<RawResult>,
                    query: string, domain: string, daysOld: string -> Option<int>, v: real)
    requires v > 0.0
    ensures WithScore(Rank(a + g + p, query, domain, daysOld), v)
         == WithScore(Scored(a, query, domain, daysOld), v)
          + WithScore(Scored(g, query, domain, daysOld), v)
          + WithScore(Scored(p, query, domain, daysOld), v)
  {
    TiesFollowConcatenation(a + g, p, query, domain, daysOld, v);
    ScoredConcat(a, g, query, domain, daysOld);
    FilterConcat(x => HasScore(x, v), Scored(a, query, domain, daysOld), Scored(g, query, domain, daysOld));
  }

  /** Among equal scores the ranking lists every arXiv result first, then
      Google Scholar's, then PubMed's, each in its adapter's order; the
      result is the first `limit` publications of that ranking. */
  lemma TiesOrderedBySource(query: string, domain: string, limit: int, env: Env, v: real)
    requires v > 0.0
    requires Gathered(query, domain, limit, env).Some?
    ensures var q := Preprocess(query, domain);
      var a := SearchArxiv(q, domain, limit, env.arxiv);
      var g := SearchScholar(q, limit, env.scholar).value;
      var p := SearchPubmed(q, limit, env.pubmed).value;
      var ranked := Rank(a + g + p, query, domain, env.daysOld);
      && SearchPublications(query, domain, limit, env) <= ranked
      && (limit >= 0 ==> |SearchPublications(query, domain, limit, env)| == Min(limit, |ranked|))
      && WithScore(ranked, v)
         == WithScore(Scored(a, query, domain, env.daysOld), v)
          + WithScore(Scored(g, query, domain, env.daysOld), v)
          + WithScore(Scored(p, query, domain, env.daysOld), v)
  {
    TiesFrom(Preprocess(query, domain), query, domain, limit, env, v);
  }
}

/** The part of the search page of `main.py` that shows the ranked list:
    the result-count widget bounds the limit, a search runs only for a
    non-empty query, and each publication gets a relevance band and a
    shortened date. */
module PublicationView {
  import opened Wrappers
  import opened Strings
  import opened Publications
  import Search
  import Ranking

  datatype Band = Low | Medium | High

  /** The band of `pub.get('score', 0)`: above 4 is High, above 2 Medium,
      otherwise Low. */
  function BandOf(score: Option<real>): (b: Band)
    ensures b == High <==> score.GetOr(0.0) > 4.0
    ensures b == Medium <==> 2.0 < score.GetOr(0.0) <= 4.0
    ensures b == Low <==> score.GetOr(0.0) <= 2.0
  {
    var s := score.GetOr(0.0);
    if s > 4.0 then High else if s > 2.0 then Medium else Low
  }

  function Level(b: Band): nat {
    match b
    case Low => 0
    case Medium => 1
    case High => 2
  }

  /** A higher score never gets a lower band. */
  lemma BandMonotone(s1: real, s2: real)
    requires s1 <= s2
    ensures Level(BandOf(Some(s1))) <= Level(BandOf(Some(s2)))
  {
  }

  /** A publication without a score counts as score 0, hence Low. */
  lemma MissingScoreIsLow()
    ensures BandOf(None) == Low
  {
  }

  /** The number widget only lets the user pick 5 to 50. */
  type ResultLimit = n: int | 5 <= n <= 50 witness 10

  /** `pub['published'][:10]`. */
  function PublishedShown(published: string): (r: string)
    ensures r <= published && |r| == Min(10, |published|)
  {
    PyTake(published, 10)
  }

  /** One expander of the result list. */
  datatype Row = Row(
    number: nat,
    title: string,
    authors: string,
    band: Band,
    domain: string,
    published: string,
    source: string,
    link: Option<string>)

  function RenderRow(number: nat, p: Publication): Row {
    Row(number, p.title, Join(p.authors, ", "), BandOf(Some(p.score)), p.domain,
        PublishedShown(p.published), p.source, p.link)
  }

  /** The rows of a result list, numbered from 1. */
  function RenderRows(results: seq<Publication>): (rows: seq<Row>)
    ensures |rows| == |results|
    ensures forall i :: 0 <= i < |results| ==>
      && rows[i].number == i + 1
      && rows[i].title == results[i].title
      && rows[i].band == BandOf(Some(results[i].score))
      && rows[i].published <= results[i].published
      && |rows[i].published| <= 10
  {
    seq(|results|, i requires 0 <= i < |results| => RenderRow(i + 1, results[i]))
  }

  /** Rows of a list sorted highest score first never rise in band. */
  lemma BandsDescend(results: seq<Publication>)
    requires Ranking.SortedDesc(results)
    ensures var rows := RenderRows(results);
      forall i, j :: 0 <= i < j < |rows| ==> Level(rows[j].band) <= Level(rows[i].band)
  {
    forall i, j | 0 <= i < j < |results|
      ensures Level(BandOf(Some(results[j].score))) <= Level(BandOf(Some(results[i].score)))
    {
      BandMonotone(results[j].score, results[i].score);
    }
  }

  /** What the page shows below the search form. */
  datatype Screen = Idle | NoResults | Results(rows: seq<Row>)

  /** The search runs only when the button was clicked and the query is
      non-empty; an empty list shows the "no publications" warning. */
  function RenderSearch(query: string, domain: string, limit: ResultLimit, clicked: bool, env: Search.Env): (s: Screen)
    ensures s.Results? ==> 0 < |s.rows| <= 50
    ensures (!clicked || query == "") ==> s == Idle
  {
    if !clicked || query == "" then Idle
    else
      var results := Search.SearchPublications(query, domain, limit, env);
      if results == [] then NoResults else Results(RenderRows(results))
  }

  /** A search with a non-empty query shows the warning exactly when the
      list is empty, and otherwise one row per publication, in rank order,
      with bands that never rise down the list. */
  lemma RowsFollowRanking(query: string, domain: string, limit: ResultLimit, env: Search.Env)
    requires query != ""
    ensures var s := RenderSearch(query, domain, limit, true, env);
      var results := Search.SearchPublications(query, domain, limit, env);
      && (s == NoResults <==> results == [])
      && (s.Results? ==>
            && s.rows == RenderRows(results)
            && (forall i, j :: 0 <= i < j < |s.rows| ==> Level(s.rows[j].band) <= Level(s.rows[i].band)))
  {
    var results := Search.SearchPublications(query, domain, limit, env);
    Search.SearchResultsRanked(query, domain, limit, env);
    BandsDescend(results);
  }
}

=== FILE: strings.dfy ===
/** The handful of Python `str` operations the application relies on,
    written out over `seq<char>`: `isspace`, `lower`, `strip`/`rstrip`,
    `split()` on whitespace, `split(c)` on one character, `in` (substring
    test), `replace`, `join` and slicing with `[:n]`.

    Case mapping is ASCII only (see README, "Left out"); whitespace is the
    full set of characters CPython's `str.isspace` accepts. */
module Strings {

  /* ---------------------------------------------------------------- */
  /* Characters                                                        */
  /* ---------------------------------------------------------------- */

  /** Python's `str.isspace` on one character. */
  predicate IsSpace(c: char) {
    var n := c as int;
    || (9 <= n <= 13)
    || (28 <= n <= 32)
    || n == 0x85 || n == 0xA0 || n == 0x1680
    || (0x2000 <= n <= 0x200A)
    || n == 0x2028 || n == 0x2029 || n == 0x202F || n == 0x205F || n == 0x3000
  }

  predicate IsUpperAscii(c: char) { 'A' <= c <= 'Z' }

  predicate IsAlnumAscii(c: char) {
    ('a' <= c <= 'z') || ('A' <= c <= 'Z') || ('0' <= c <= '9')
  }

  function LowerChar(c: char): char {
    if IsUpperAscii(c) then (c as int + 32) as char else c
  }

  /** No character of `s` is changed by `lower()`. */
  predicate IsLowerCase(s: string) {
    forall i :: 0 <= i < |s| ==> !IsUpperAscii(s[i])
  }

  lemma LowerCaseConcat(a: string, b: string)
    requires IsLowerCase(a) && IsLowerCase(b)
    ensures IsLowerCase(a + b)
  {
    assert forall i :: |a| <= i < |a + b| ==> (a + b)[i] == b[i - |a|];
  }

  /** Python's `s.lower()`. */
  function Lower(s: string): (r: string)
    ensures |r| == |s|
    ensures forall i :: 0 <= i < |s| ==> r[i] == LowerChar(s[i])
    ensures IsLowerCase(r)
    ensures IsLowerCase(s) ==> r == s
  {
    seq(|s|, i requires 0 <= i < |s| => LowerChar(s[i]))
  }

  /* ---------------------------------------------------------------- */
  /* Stripping                                                         */
  /* ---------------------------------------------------------------- */

  /** Python's `s.lstrip()`: drops the leading whitespace. */
  function TrimStart(s: string): (r: string)
    ensures |r| <= |s| && r == s[|s| - |r|..]
    ensures |r| > 0 ==> !IsSpace(r[0])
    decreases |s|
  {
    if |s| > 0 && IsSpace(s[0]) then TrimStart(s[1..]) else s
  }

  /** Python's `s.rstrip()`: drops the trailing whitespace. */
  function TrimEnd(s: string): (r: string)
    ensures |r| <= |s| && r == s[..|r|]
    ensures |r| > 0 ==> !IsSpace(r[|r| - 1])
    decreases |s|
  {
    if |s| > 0 && IsSpace(s[|s| - 1]) then TrimEnd(s[..|s| - 1]) else s
  }

  /** `lstrip` drops only whitespace. */
  lemma {:induction false} TrimStartDropsSpaces(s: string)
    ensures forall i :: 0 <= i < |s| - |TrimStart(s)| ==> IsSpace(s[i])
    decreases |s|
  {
    if |s| > 0 && IsSpace(s[0]) {
      TrimStartDropsSpaces(s[1..]);
    }
  }

  /** `rstrip` drops only whitespace. */
  lemma {:induction false} TrimEndDropsSpaces(s: string)
    ensures forall i :: |TrimEnd(s)| <= i < |s| ==> IsSpace(s[i])
    decreases |s|
  {
    if |s| > 0 && IsSpace(s[|s| - 1]) {
      TrimEndDropsSpaces(s[..|s| - 1]);
    }
  }

  /** Python's `s.strip()`. */
  function Strip(s: string): (r: string)
    ensures |r| <= |s|
    ensures |r| > 0 ==> !IsSpace(r[0]) && !IsSpace(r[|r| - 1])
  {
    TrimEnd(TrimStart(s))
  }

  /** Every character of `x` is whitespace. */
  predicate IsBlank(x: string) {
    forall i :: 0 <= i < |x| ==> IsSpace(x[i])
  }

  /** `lstrip` cuts off a blank prefix. */
  lemma TrimStartSplits(s: string)
    ensures IsBlank(s[..|s| - |TrimStart(s)|])
  {
    TrimStartDropsSpaces(s);
  }

  /** `rstrip` cuts off a blank suffix. */
  lemma TrimEndSplits(t: string)
    ensures IsBlank(t[|TrimEnd(t)|..])
  {
    TrimEndDropsSpaces(t);
  }

  /** A slice taken from the front of a suffix splits the string in three. */
  lemma ThreeParts(s: string, t: string, r: string, a: int)
    requires 0 <= a <= |s| && t == s[a..] && |r| <= |t| && r == t[..|r|]
    ensures s == s[..a] + r + s[a + |r|..]
  {
    assert s == s[..a] + s[a..];
    assert t == t[..|r|] + t[|r|..];
  }

  /** A blank tail of a suffix is a blank tail of the whole string. */
  lemma BlankTail(s: string, t: string, r: string, a: int)
    requires 0 <= a <= |s| && t == s[a..] && |r| <= |t| && IsBlank(t[|r|..])
    ensures IsBlank(s[a + |r|..])
  {
    assert t[|r|..] == s[a + |r|..];
  }

  /** `strip` removes exactly the blank run at each end: the input is a
      blank prefix, the result, and a blank suffix. */
  lemma StripSpec(s: string)
    ensures var a, r := |s| - |TrimStart(s)|, Strip(s);
      && a + |r| <= |s|
      && s == s[..a] + r + s[a + |r|..]
      && IsBlank(s[..a]) && IsBlank(s[a + |r|..])
  {
    var t := TrimStart(s);
    var a := |s| - |t|;
    var r := TrimEnd(t);
    assert Strip(s) == r;
    TrimStartSplits(s);
    TrimEndSplits(t);
    BlankTail(s, t, r, a);
    ThreeParts(s, t, r, a);
  }

  /** A string `Strip` leaves alone: empty, or non-blank at both ends. */
  predicate IsStripped(s: string) {
    |s| == 0 || (!IsSpace(s[0]) && !IsSpace(s[|s| - 1]))
  }

  lemma StripOfStripped(s: string)
    requires IsStripped(s)
    ensures Strip(s) == s
  {
  }

  /** Stripping cuts a slice, so it keeps a string lower-case. */
  lemma StripKeepsLowerCase(s: string)
    requires IsLowerCase(s)
    ensures IsLowerCase(Strip(s))
  {
    var t := TrimStart(s);
    LowerCaseSlice(s, |s| - |t|, |s|);
    LowerCaseSlice(t, 0, |TrimEnd(t)|);
  }

  lemma LowerCaseSlice(s: string, a: int, b: int)
    requires IsLowerCase(s) && 0 <= a <= b <= |s|
    ensures IsLowerCase(s[a..b])
  {
    assert forall i :: 0 <= i < b - a ==> s[a..b][i] == s[a + i];
  }

  /** Stripping cuts a slice, so it adds no character. */
  lemma StripWithin(s: string, c: char)
    requires c !in s
    ensures c !in Strip(s)
  {
    var t := TrimStart(s);
    assert forall x :: x in t ==> x in s;
    assert forall x :: x in TrimEnd(t) ==> x in t;
  }

  /* ---------------------------------------------------------------- */
  /* Substrings                                                        */
  /* ---------------------------------------------------------------- */

  /** `needle` occurs in `hay` starting at index `i`. */
  predicate OccursAt(needle: string, hay: string, i: int) {
    0 <= i && i + |needle| <= |hay| && hay[i..i + |needle|] == needle
  }

  /** Python's `needle in hay` on strings. */
  predicate Contains(hay: string, needle: string) {
    exists i | 0 <= i <= |hay| - |needle| :: OccursAt(needle, hay, i)
  }

  /** The two characters `a`, `b` appear next to each other in `x`. */
  predicate HasPair(x: string, a: char, b: char) {
    exists i | 0 <= i < |x| - 1 :: x[i] == a && x[i + 1] == b
  }

  lemma OccursShift(needle: string, hay: string, i: int)
    requires |hay| > 0 && 0 <= i
    ensures OccursAt(needle, hay[1..], i) <==> OccursAt(needle, hay, i + 1)
  {
    if 0 <= i && i + |needle| <= |hay| - 1 {
      assert hay[1..][i..i + |needle|] == hay[i + 1..i + 1 + |needle|];
    }
  }

  lemma OccursAfterPrefix(p: string, hay: string, needle: string, i: int)
    requires OccursAt(needle, hay, i)
    ensures OccursAt(needle, p + hay, |p| + i)
  {
    assert (p + hay)[|p| + i..|p| + i + |needle|] == hay[i..i + |needle|];
  }

  lemma OccursBeforeSuffix(hay: string, q: string, needle: string, i: int)
    requires OccursAt(needle, hay, i)
    ensures OccursAt(needle, hay + q, i)
  {
    assert (hay + q)[i..i + |needle|] == hay[i..i + |needle|];
  }

  /** A substring of `mid` is a substring of `pre + mid + suf`. */
  lemma ContainsInFrame(pre: string, mid: string, suf: string, needle: string)
    requires Contains(mid, needle)
    ensures Contains(pre + mid + suf, needle)
  {
    var k :| 0 <= k <= |mid| - |needle| && OccursAt(needle, mid, k);
    OccursAfterPrefix(pre, mid, needle, k);
    OccursBeforeSuffix(pre + mid, suf, needle, |pre| + k);
  }

  /** A two-character needle occurs only where its characters are adjacent. */
  lemma NoPairNoOccurrence(x: string, a: char, b: char)
    requires !HasPair(x, a, b)
    ensures !Contains(x, [a, b])
  {
    forall i | 0 <= i <= |x| - 2 ensures !OccursAt([a, b], x, i) {
      assert x[i..i + 2][0] == x[i] && x[i..i + 2][1] == x[i + 1];
    }
  }

  /** Lower-casing maps an occurrence of `x` to one of `lower(x)`. */
  lemma LowerKeepsOccurrence(x: string, s: string, k: int)
    requires OccursAt(x, s, k)
    ensures OccursAt(Lower(x), Lower(s), k)
  {
    assert Lower(s)[k..k + |x|] == Lower(x);
  }

  lemma TrimStartKeepsOccurrence(x: string, s: string, k: int)
    requires OccursAt(x, s, k) && |x| > 0 && !IsSpace(x[0])
    ensures OccursAt(x, TrimStart(s), k - (|s| - |TrimStart(s)|))
  {
    var t := TrimStart(s);
    var a := |s| - |t|;
    assert s[k] == x[0];
    TrimStartDropsSpaces(s);
    assert k >= a;
    assert t == s[a..];
    forall j | 0 <= j < |x| ensures t[k - a + j] == x[j] {
      assert t[k - a + j] == s[k + j];
    }
  }

  lemma TrimEndKeepsOccurrence(x: string, s: string, k: int)
    requires OccursAt(x, s, k) && |x| > 0 && !IsSpace(x[|x| - 1])
    ensures OccursAt(x, TrimEnd(s), k)
  {
    var u := TrimEnd(s);
    assert s[k + |x| - 1] == x[|x| - 1];
    TrimEndDropsSpaces(s);
    assert k + |x| <= |u|;
    forall j | 0 <= j < |x| ensures u[k + j] == x[j] {
      assert u[k + j] == s[k + j];
    }
  }

  /** Stripping keeps an occurrence of a needle that is non-blank at both ends. */
  lemma StripKeepsOccurrence(x: string, s: string, k: int)
    requires OccursAt(x, s, k) && |x| > 0
    requires !IsSpace(x[0]) && !IsSpace(x[|x| - 1])
    ensures Contains(Strip(s), x)
  {
    var t := TrimStart(s);
    TrimStartKeepsOccurrence(x, s, k);
    var k' := k - (|s| - |t|);
    TrimEndKeepsOccurrence(x, t, k');
    assert OccursAt(x, Strip(s), k');
  }

  /* ---------------------------------------------------------------- */
  /* Replacement                                                       */
  /* ---------------------------------------------------------------- */

  /** Python's `s.replace(pat, rep)` for a non-empty `pat`: scans left to
      right and replaces every non-overlapping occurrence. */
  function ReplaceAll(s: string, pat: string, rep: string): (r: string)
    requires |pat| > 0
    ensures !Contains(s, pat) ==> r == s
    ensures IsLowerCase(s) && IsLowerCase(rep) ==> IsLowerCase(r)
    decreases |s|
  {
    if |s| < |pat| then s
    else if s[..|pat|] == pat then
      var r := rep + ReplaceAll(s[|pat|..], pat, rep);
      assert !Contains(s, pat) ==> false by {
        assert OccursAt(pat, s, 0);
      }
      r
    else
      var tail := ReplaceAll(s[1..], pat, rep);
      assert !Contains(s, pat) ==> !Contains(s[1..], pat) by {
        if Contains(s[1..], pat) {
          var i :| 0 <= i <= |s[1..]| - |pat| && OccursAt(pat, s[1..], i);
          OccursShift(pat, s, i);
        }
      }
      assert !Contains(s, pat) ==> [s[0]] + tail == s by {
        if !Contains(s, pat) {
          assert tail == s[1..];
        }
      }
      [s[0]] + tail
  }

  /** If no occurrence of `pat` starts inside the prefix `x`, the
      replacement leaves that prefix in place. */
  lemma {:induction false} ReplaceKeepsPrefix(s: string, pat: string, rep: string, x: string)
    requires |pat| > 0 && x <= s
    requires forall i :: 0 <= i < |x| ==> !OccursAt(pat, s, i)
    ensures x <= ReplaceAll(s, pat, rep)
    decreases |x|
  {
    if |x| > 0 && |s| >= |pat| {
      assert !OccursAt(pat, s, 0);
      forall i | 0 <= i < |x| - 1 ensures !OccursAt(pat, s[1..], i) {
        OccursShift(pat, s, i);
      }
      ReplaceKeepsPrefix(s[1..], pat, rep, x[1..]);
    }
  }

  /** Cutting off an occurrence of `pat` at the front keeps an occurrence
      of `x` that no occurrence of `pat` overlaps, shifted. */
  lemma DropOccurrence(s: string, pat: string, x: string, k: int)
    requires OccursAt(x, s, k) && |pat| <= k
    requires forall i :: k - |pat| < i < k + |x| ==> !OccursAt(pat, s, i)
    ensures OccursAt(x, s[|pat|..], k - |pat|)
    ensures forall i :: k - |pat| - |pat| < i < k - |pat| + |x| ==> !OccursAt(pat, s[|pat|..], i)
  {
    var s' := s[|pat|..];
    assert s'[k - |pat|..k - |pat| + |x|] == s[k..k + |x|];
    forall i | k - |pat| - |pat| < i < k - |pat| + |x| ensures !OccursAt(pat, s', i) {
      if 0 <= i && i + |pat| <= |s'| {
        assert s'[i..i + |pat|] == s[i + |pat|..i + |pat| + |pat|];
        assert !OccursAt(pat, s, i + |pat|);
      }
    }
  }

  /** Cutting off the first character does the same, shifted by one. */
  lemma DropChar(s: string, pat: string, x: string, k: int)
    requires OccursAt(x, s, k) && 1 <= k
    requires forall i :: k - |pat| < i < k + |x| ==> !OccursAt(pat, s, i)
    ensures OccursAt(x, s[1..], k - 1)
    ensures forall i :: k - 1 - |pat| < i < k - 1 + |x| ==> !OccursAt(pat, s[1..], i)
  {
    OccursShift(x, s, k - 1);
    forall i | k - 1 - |pat| < i < k - 1 + |x| ensures !OccursAt(pat, s[1..], i) {
      if 0 <= i {
        OccursShift(pat, s, i);
      }
    }
  }

  /** The replacement keeps an occurrence of `x` at `k` that no occurrence
      of `pat` overlaps. */
  lemma {:induction false} ReplaceKeepsOccurrence(s: string, pat: string, rep: string, x: string, k: int)
    requires |pat| > 0 && |x| > 0 && OccursAt(x, s, k)
    requires forall i :: k - |pat| < i < k + |x| ==> !OccursAt(pat, s, i)
    ensures Contains(ReplaceAll(s, pat, rep), x)
    decreases |s|
  {
    var r := ReplaceAll(s, pat, rep);
    if |s| < |pat| {
      assert OccursAt(x, r, k);
    } else if k == 0 {
      assert x == s[..|x|];
      ReplaceKeepsPrefix(s, pat, rep, x);
      assert OccursAt(x, r, 0);
    } else if s[..|pat|] == pat {
      assert OccursAt(pat, s, 0);
      var s' := s[|pat|..];
      DropOccurrence(s, pat, x, k);
      ReplaceKeepsOccurrence(s', pat, rep, x, k - |pat|);
      var j :| 0 <= j <= |ReplaceAll(s', pat, rep)| - |x| && OccursAt(x, ReplaceAll(s', pat, rep), j);
      OccursAfterPrefix(rep, ReplaceAll(s', pat, rep), x, j);
    } else {
      var s' := s[1..];
      DropChar(s, pat, x, k);
      ReplaceKeepsOccurrence(s', pat, rep, x, k - 1);
      var j :| 0 <= j <= |ReplaceAll(s', pat, rep)| - |x| && OccursAt(x, ReplaceAll(s', pat, rep), j);
      OccursAfterPrefix([s[0]], ReplaceAll(s', pat, rep), x, j);
    }
  }

  /** A pair-free suffix: cutting a prefix forms no new pair. */
  lemma NoPairInSuffix(s: string, k: int, a: char, b: char)
    requires 0 <= k <= |s| && !HasPair(s, a, b)
    ensures !HasPair(s[k..], a, b)
  {
    forall i | 0 <= i < |s| - k - 1 ensures !(s[k..][i] == a && s[k..][i + 1] == b) {
      assert s[k..][i] == s[k + i] && s[k..][i + 1] == s[k + i + 1];
    }
  }

  /** Two pair-free strings form a pair only across the seam. */
  lemma NoPairInConcat(x: string, y: string, a: char, b: char)
    requires !HasPair(x, a, b) && !HasPair(y, a, b)
    requires |x| > 0 && |y| > 0 ==> x[|x| - 1] != a || y[0] != b
    ensures !HasPair(x + y, a, b)
  {
    var s := x + y;
    forall i | 0 <= i < |s| - 1 ensures !(s[i] == a && s[i + 1] == b) {
      if i + 1 < |x| {
        assert s[i] == x[i] && s[i + 1] == x[i + 1];
      } else if i >= |x| {
        assert s[i] == y[i - |x|] && s[i + 1] == y[i - |x| + 1];
      }
    }
  }

  /** The replacement starts with the replacement text when the string
      starts with the pattern, and with the string's own first character
      otherwise. */
  lemma ReplaceHead(s: string, pat: string, rep: string)
    requires |pat| > 0 && |rep| > 0 && |s| > 0
    ensures |ReplaceAll(s, pat, rep)| > 0
    ensures ReplaceAll(s, pat, rep)[0] == if |s| >= |pat| && s[..|pat|] == pat then rep[0] else s[0]
  {
  }

  /** The scan at an occurrence: the replacement, then the rest. */
  lemma ReplaceAtOccurrence(s: string, pat: string, rep: string)
    requires |pat| > 0 && OccursAt(pat, s, 0)
    ensures ReplaceAll(s, pat, rep) == rep + ReplaceAll(s[|pat|..], pat, rep)
  {
    assert s[..|pat|] == s[0..|pat|];
  }

  /** The scan elsewhere: the first character, then the rest. */
  lemma ReplaceSkipsChar(s: string, pat: string, rep: string)
    requires |pat| > 0 && |s| > 0 && !OccursAt(pat, s, 0)
    ensures ReplaceAll(s, pat, rep) == [s[0]] + ReplaceAll(s[1..], pat, rep)
  {
    assert |s| >= |pat| ==> s[..|pat|] == s[0..|pat|];
  }

  /** A map that, on each of the first `k` suffixes of `s`, emits the
      head and goes on with the tail emits the first `k` elements as
      they are. */
  lemma {:induction false} CopiesPrefix<T>(f: seq<T> -> seq<T>, s: seq<T>, k: nat)
    requires k <= |s|
    requires forall j :: 0 <= j < k ==> f(s[j..]) == [s[j]] + f(s[j + 1..])
    ensures f(s) == s[..k] + f(s[k..])
  {
    if k == 0 {
      assert s[..0] == [] && s[0..] == s;
    } else {
      CopiesPrefix(f, s, k - 1);
      assert s[..k] == s[..k - 1] + [s[k - 1]];
    }
  }

  lemma Regroup<T>(r: seq<T>, a: seq<T>, b: seq<T>, d: seq<T>)
    requires r == a + (b + d)
    ensures r == a + b + d
  {
  }

  /** The suffix of `s` at `j`, where no occurrence starts. */
  lemma SuffixShift(pat: string, s: string, j: nat)
    requires j < |s| && !OccursAt(pat, s, j)
    ensures |s[j..]| > 0 && !OccursAt(pat, s[j..], 0)
    ensures s[j..][0] == s[j] && s[j..][1..] == s[j + 1..]
  {
    if |pat| <= |s| - j {
      assert s[j..][0..|pat|] == s[j..j + |pat|];
    }
  }

  /** The suffix of `s` at `k`, where an occurrence starts. */
  lemma SuffixAt(pat: string, s: string, k: nat)
    requires OccursAt(pat, s, k)
    ensures OccursAt(pat, s[k..], 0) && s[k..][|pat|..] == s[k + |pat|..]
  {
    assert s[k..][0..|pat|] == s[k..k + |pat|];
  }

  /** The scan at the first occurrence, which starts at index `k`: the
      text before it is copied, the occurrence becomes `rep`, and the scan
      goes on behind it. */
  lemma ReplaceAtFirst(s: string, pat: string, rep: string, k: nat)
    requires |pat| > 0 && OccursAt(pat, s, k)
    requires forall i :: 0 <= i < k ==> !OccursAt(pat, s, i)
    ensures ReplaceAll(s, pat, rep) == s[..k] + rep + ReplaceAll(s[k + |pat|..], pat, rep)
  {
    forall j | 0 <= j < k
      ensures ReplaceAll(s[j..], pat, rep) == [s[j]] + ReplaceAll(s[j + 1..], pat, rep)
    {
      SuffixShift(pat, s, j);
      ReplaceSkipsChar(s[j..], pat, rep);
    }
    CopiesPrefix(x => ReplaceAll(x, pat, rep), s, k);
    SuffixAt(pat, s, k);
    ReplaceAtOccurrence(s[k..], pat, rep);
    Regroup(ReplaceAll(s, pat, rep), s[..k], rep, ReplaceAll(s[k + |pat|..], pat, rep));
  }

  lemma ThreeSlices<T>(x: seq<T>, p: seq<T>, y: seq<T>)
    ensures (x + p + y)[..|x|] == x && (x + p + y)[|x|..|x| + |p|] == p
    ensures (x + p + y)[|x| + |p|..] == y
  {
  }

  /** The same step written on the parts: a stretch `x` in which no
      occurrence starts is copied, the `pat` after it becomes `rep`, and
      the scan goes on with `y`. */
  lemma ReplaceStep(x: string, pat: string, y: string, rep: string)
    requires |pat| > 0
    requires forall i :: 0 <= i < |x| ==> !OccursAt(pat, x + pat + y, i)
    ensures ReplaceAll(x + pat + y, pat, rep) == x + rep + ReplaceAll(y, pat, rep)
  {
    ThreeSlices(x, pat, y);
    ReplaceAtFirst(x + pat + y, pat, rep, |x|);
  }

  /** No occurrence of `ab` starts inside an `ab`-free `x`, unless `x`
      ends in `a` and `y` starts with `b`. */
  lemma NoEarlyPair(x: string, y: string, a: char, b: char)
    requires !HasPair(x, a, b)
    requires |x| > 0 && |y| > 0 ==> x[|x| - 1] != a || y[0] != b
    ensures forall i :: 0 <= i < |x| ==> !OccursAt([a, b], x + y, i)
  {
    var s := x + y;
    forall i | 0 <= i < |x| ensures !OccursAt([a, b], s, i) {
      if i + 2 <= |s| {
        assert s[i..i + 2][0] == s[i] && s[i..i + 2][1] == s[i + 1];
        assert s[i] == x[i];
        if i + 1 < |x| {
          assert s[i + 1] == x[i + 1];
        } else {
          assert s[i + 1] == y[0];
        }
      }
    }
  }

  /** Replacing the two-character pattern `ab` leaves no `ab` behind, when
      the replacement text holds none and cannot form one with its
      neighbours: every occurrence the left-to-right scan reaches is
      replaced. */
  lemma {:induction false} ReplaceRemovesPair(s: string, a: char, b: char, rep: string)
    requires |rep| > 0 && !HasPair(rep, a, b) && rep[0] != b && rep[|rep| - 1] != a
    ensures !HasPair(ReplaceAll(s, [a, b], rep), a, b)
    decreases |s|
  {
    var pat := [a, b];
    if |s| < 2 {
    } else if s[..2] == pat {
      ReplaceRemovesPair(s[2..], a, b, rep);
      NoPairInConcat(rep, ReplaceAll(s[2..], pat, rep), a, b);
    } else {
      assert s[..2] == [s[0], s[1]];
      ReplaceRemovesPair(s[1..], a, b, rep);
      ReplaceHead(s[1..], pat, rep);
      NoPairInConcat([s[0]], ReplaceAll(s[1..], pat, rep), a, b);
    }
  }

  /** Replacing any pattern keeps a string free of the pair `cd`, when the
      replacement text holds none and cannot form one with its
      neighbours. */
  lemma {:induction false} ReplaceKeepsPairFree(s: string, pat: string, rep: string, c: char, d: char)
    requires |pat| > 0 && |rep| > 0 && !HasPair(s, c, d)
    requires !HasPair(rep, c, d) && rep[0] != d && rep[|rep| - 1] != c
    ensures !HasPair(ReplaceAll(s, pat, rep), c, d)
    decreases |s|
  {
    if |s| < |pat| {
    } else if s[..|pat|] == pat {
      NoPairInSuffix(s, |pat|, c, d);
      ReplaceKeepsPairFree(s[|pat|..], pat, rep, c, d);
      NoPairInConcat(rep, ReplaceAll(s[|pat|..], pat, rep), c, d);
    } else {
      NoPairInSuffix(s, 1, c, d);
      ReplaceKeepsPairFree(s[1..], pat, rep, c, d);
      if |s| > 1 {
        ReplaceHead(s[1..], pat, rep);
      }
      NoPairInConcat([s[0]], ReplaceAll(s[1..], pat, rep), c, d);
    }
  }

  /* ---------------------------------------------------------------- */
  /* Splitting on whitespace                                           */
  /* ---------------------------------------------------------------- */

  /** End of the maximal run of non-blank characters starting at `i`. */
  function TokenEnd(s: string, i: nat): (e: nat)
    requires i <= |s|
    ensures i <= e <= |s|
    ensures forall k :: i <= k < e ==> !IsSpace(s[k])
    ensures e < |s| ==> IsSpace(s[e])
    decreases |s| - i
  {
    if i == |s| || IsSpace(s[i]) then i else TokenEnd(s, i + 1)
  }

  /** A token of `split()`: non-empty, with no whitespace inside. */
  predicate IsToken(w: string) {
    |w| > 0 && forall k :: 0 <= k < |w| ==> !IsSpace(w[k])
  }

  /** Python's `s.split()` with no argument: the maximal runs of
      non-whitespace characters, in order. */
  function Words(s: string): (ws: seq<string>)
    ensures forall w :: w in ws ==> IsToken(w)
    decreases |s|
  {
    if |s| == 0 then []
    else if IsSpace(s[0]) then Words(s[1..])
    else
      var e := TokenEnd(s, 0);
      [s[..e]] + Words(s[e..])
  }

  /** Inside a token followed by nothing or a blank, the run ends at the
      token's end. */
  lemma {:induction false} TokenEndOfToken(w: string, t: string, i: nat)
    requires IsToken(w) && i <= |w| && (t == [] || IsSpace(t[0]))
    ensures TokenEnd(w + t, i) == |w|
    decreases |w| - i
  {
    if i < |w| {
      assert (w + t)[i] == w[i];
      TokenEndOfToken(w, t, i + 1);
    } else if t != [] {
      assert (w + t)[i] == t[0];
    }
  }

  /** A token followed by nothing or a blank is the first word. */
  lemma WordsOfTokenThen(w: string, t: string)
    requires IsToken(w) && (t == [] || IsSpace(t[0]))
    ensures Words(w + t) == [w] + Words(t)
  {
    TokenEndOfToken(w, t, 0);
    assert (w + t)[0] == w[0];
    assert (w + t)[..|w|] == w && (w + t)[|w|..] == t;
  }

  /** A single token splits into itself. */
  lemma WordsOfToken(w: string)
    requires IsToken(w)
    ensures Words(w) == [w]
  {
    WordsOfTokenThen(w, "");
    assert w + "" == w;
  }

  /** Tokens joined with single blanks split back into the same tokens. */
  lemma {:induction false} WordsJoinRoundTrip(ws: seq<string>)
    requires forall i :: 0 <= i < |ws| ==> IsToken(ws[i])
    ensures Words(Join(ws, " ")) == ws
    decreases |ws|
  {
    if |ws| == 1 {
      WordsOfToken(ws[0]);
    } else if |ws| > 1 {
      var rest := Join(ws[1..], " ");
      WordsJoinRoundTrip(ws[1..]);
      assert Join(ws, " ") == ws[0] + (" " + rest);
      WordsOfTokenThen(ws[0], " " + rest);
      assert (" " + rest)[1..] == rest;
      assert ws == [ws[0]] + ws[1..];
    }
  }

  /* ---------------------------------------------------------------- */
  /* Joining and splitting on a separator                              */
  /* ---------------------------------------------------------------- */

  /** Python's `sep.join(parts)`. */
  function Join(parts: seq<string>, sep: string): string
  {
    if |parts| == 0 then ""
    else if |parts| == 1 then parts[0]
    else parts[0] + sep + Join(parts[1..], sep)
  }

  /** Every part is a substring of the joined string. */
  lemma {:induction false} JoinContainsParts(parts: seq<string>, sep: string, i: int)
    requires 0 <= i < |parts|
    ensures Contains(Join(parts, sep), parts[i])
    decreases |parts|
  {
    if |parts| == 1 || i == 0 {
      var rest := if |parts| == 1 then "" else sep + Join(parts[1..], sep);
      assert Join(parts, sep) == parts[0] + rest;
      OccursBeforeSuffix(parts[0], rest, parts[0], 0);
      assert OccursAt(parts[0], parts[0], 0);
      assert OccursAt(parts[i], Join(parts, sep), 0);
    } else {
      JoinContainsParts(parts[1..], sep, i - 1);
      var j :| 0 <= j <= |Join(parts[1..], sep)| - |parts[i]| && OccursAt(parts[i], Join(parts[1..], sep), j);
      OccursAfterPrefix(parts[0] + sep, Join(parts[1..], sep), parts[i], j);
      assert Join(parts, sep) == (parts[0] + sep) + Join(parts[1..], sep);
    }
  }

  /** Number of occurrences of character `c` in `s`. */
  function CountChar(s: string, c: char): nat
  {
    if |s| == 0 then 0 else (if s[0] == c then 1 else 0) + CountChar(s[1..], c)
  }

  /** Python's `s.split(c)` for a one-character separator: always at least
      one piece, possibly empty ones. */
  function SplitOn(s: string, c: char): (parts: seq<string>)
    ensures |parts| == 1 + CountChar(s, c)
    ensures forall p :: p in parts ==> c !in p
    decreases |s|
  {
    if |s| == 0 then [""]
    else if s[0] == c then [""] + SplitOn(s[1..], c)
    else
      var rest := SplitOn(s[1..], c);
      [[s[0]] + rest[0]] + rest[1..]
  }

  /** Joining the pieces of a split puts the separators back. */
  lemma {:induction false} JoinSplit(s: string, c: char)
    ensures Join(SplitOn(s, c), [c]) == s
    decreases |s|
  {
    if |s| > 0 {
      var rest := SplitOn(s[1..], c);
      JoinSplit(s[1..], c);
      if s[0] == c {
        assert SplitOn(s, c) == [""] + rest;
        assert Join([""] + rest, [c]) == "" + [c] + Join(rest, [c]);
      } else {
        if |rest| == 1 {
          assert SplitOn(s, c) == [[s[0]] + rest[0]];
        } else {
          assert SplitOn(s, c) == [[s[0]] + rest[0]] + rest[1..];
          assert Join(rest, [c]) == rest[0] + [c] + Join(rest[1..], [c]);
        }
      }
    }
  }

  /** Splitting a join of separator-free pieces gives the pieces back. */
  lemma {:induction false} SplitJoin(parts: seq<string>, c: char)
    requires |parts| > 0
    requires forall p :: p in parts ==> c !in p
    ensures SplitOn(Join(parts, [c]), c) == parts
    decreases |parts|, |parts[0]|
  {
    var p := parts[0];
    if |parts| == 1 {
      SplitPlain(p, c);
    } else {
      var rest := Join(parts[1..], [c]);
      assert Join(parts, [c]) == p + [c] + rest;
      SplitJoin(parts[1..], c);
      SplitAfterPlain(p, rest, c);
    }
  }

  /** A piece without the separator splits to itself. */
  lemma {:induction false} SplitPlain(p: string, c: char)
    requires c !in p
    ensures SplitOn(p, c) == [p]
    decreases |p|
  {
    if |p| > 0 {
      SplitPlain(p[1..], c);
      assert [p[0]] + p[1..] == p;
    }
  }

  /** Splitting `p + c + rest`, where `p` has no `c`, yields `p` first. */
  lemma {:induction false} SplitAfterPlain(p: string, rest: string, c: char)
    requires c !in p
    ensures SplitOn(p + [c] + rest, c) == [p] + SplitOn(rest, c)
    decreases |p|
  {
    if |p| == 0 {
      assert p + [c] + rest == [c] + rest;
      assert ([c] + rest)[1..] == rest;
    } else {
      assert (p + [c] + rest)[1..] == p[1..] + [c] + rest;
      SplitAfterPlain(p[1..], rest, c);
      assert [p[0]] + p[1..] == p;
    }
  }

  /* ---------------------------------------------------------------- */
  /* Sequences                                                         */
  /* ---------------------------------------------------------------- */

  /** `a` is obtained from `b` by deleting elements (order kept). */
  predicate IsSubsequence<T(==)>(a: seq<T>, b: seq<T>)
    decreases |b|
  {
    if |a| == 0 then true
    else if |b| == 0 then false
    else if a[0] == b[0] then IsSubsequence(a[1..], b[1..])
    else IsSubsequence(a, b[1..])
  }

  lemma {:induction false} SubsequenceLength<T>(a: seq<T>, b: seq<T>)
    requires IsSubsequence(a, b)
    ensures |a| <= |b|
    decreases |b|
  {
    if |a| > 0 {
      if a[0] == b[0] {
        SubsequenceLength(a[1..], b[1..]);
      } else {
        SubsequenceLength(a, b[1..]);
      }
    }
  }

  lemma {:induction false} SubsequenceMembers<T>(a: seq<T>, b: seq<T>)
    requires IsSubsequence(a, b)
    ensures forall x :: x in a ==> x in b
    decreases |b|
  {
    if |a| > 0 {
      if a[0] == b[0] {
        SubsequenceMembers(a[1..], b[1..]);
        assert forall x :: x in a ==> x == a[0] || x in a[1..];
      } else {
        SubsequenceMembers(a, b[1..]);
      }
    }
  }

  /** Every prefix of a subsequence is a subsequence. */
  lemma {:induction false} PrefixOfSubsequence<T>(p: seq<T>, a: seq<T>, b: seq<T>)
    requires IsSubsequence(a, b) && p <= a
    ensures IsSubsequence(p, b)
    decreases |b|
  {
    if |p| > 0 {
      if a[0] == b[0] {
        PrefixOfSubsequence(p[1..], a[1..], b[1..]);
      } else {
        PrefixOfSubsequence(p, a, b[1..]);
      }
    }
  }

  /** Dropping the first element of a subsequence keeps a subsequence. */
  lemma {:induction false} SubsequenceTail<T>(a: seq<T>, b: seq<T>)
    requires IsSubsequence(a, b) && |a| > 0
    ensures IsSubsequence(a[1..], b)
    decreases |b|
  {
    if a[0] != b[0] {
      SubsequenceTail(a, b[1..]);
      SubsequenceSkip(a[1..], b);
    } else {
      SubsequenceSkip(a[1..], b);
    }
  }

  /** A subsequence of the tail is a subsequence of the whole. */
  lemma {:induction false} SubsequenceSkip<T>(a: seq<T>, b: seq<T>)
    requires |b| > 0 && IsSubsequence(a, b[1..])
    ensures IsSubsequence(a, b)
    decreases |b|, 0
  {
    if |a| > 0 && a[0] == b[0] {
      SubsequenceTail(a, b[1..]);
    }
  }

  lemma {:induction false} SubsequenceReflexive<T>(a: seq<T>)
    ensures IsSubsequence(a, a)
    decreases |a|
  {
    if |a| > 0 {
      SubsequenceReflexive(a[1..]);
    }
  }

  /** Keeps the elements satisfying `keep`, in order (a list comprehension
      with an `if`). */
  function Filter<T>(keep: T -> bool, s: seq<T>): (r: seq<T>)
    ensures |r| <= |s|
    ensures forall x :: x in r ==> x in s && keep(x)
    decreases |s|
  {
    if |s| == 0 then []
    else if keep(s[0]) then [s[0]] + Filter(keep, s[1..])
    else Filter(keep, s[1..])
  }

  lemma {:induction false} FilterIsSubsequence<T>(keep: T -> bool, s: seq<T>)
    ensures IsSubsequence(Filter(keep, s), s)
    decreases |s|
  {
    if |s| > 0 {
      FilterIsSubsequence(keep, s[1..]);
    }
  }

  lemma {:induction false} FilterConcat<T>(keep: T -> bool, a: seq<T>, b: seq<T>)
    ensures Filter(keep, a + b) == Filter(keep, a) + Filter(keep, b)
    decreases |a|
  {
    if |a| > 0 {
      assert (a + b)[1..] == a[1..] + b;
      FilterConcat(keep, a[1..], b);
    } else {
      assert a + b == b;
    }
  }

  /** Keeping an element is the only way into the filtered list. */
  lemma {:induction false} FilterKeeps<T>(keep: T -> bool, s: seq<T>, x: T)
    requires x in s && keep(x)
    ensures x in Filter(keep, s)
    decreases |s|
  {
    if s[0] != x {
      FilterKeeps(keep, s[1..], x);
    }
  }

  /** The filter keeps exactly the elements that pass the test. */
  lemma FilterMembers<T>(keep: T -> bool, s: seq<T>)
    ensures forall x :: x in Filter(keep, s) <==> x in s && keep(x)
  {
    forall x | x in s && keep(x) ensures x in Filter(keep, s) {
      FilterKeeps(keep, s, x);
    }
  }

  predicate NoDuplicates<T(==)>(s: seq<T>) {
    forall i, j :: 0 <= i < j < |s| ==> s[i] != s[j]
  }

  /** The first occurrence of each element, in order (Python's
      `list(dict.fromkeys(s))`); also stands for `set(s)`. */
  function Distinct<T(==,!new)>(s: seq<T>): (r: seq<T>)
    ensures forall t :: t in r <==> t in s
    ensures NoDuplicates(r)
    ensures |r| <= |s|
    decreases |s|
  {
    if |s| == 0 then []
    else
      var rest := Distinct(s[1..]);
      if s[0] in rest then rest else [s[0]] + rest
  }

  function Min(a: int, b: int): int { if a <= b then a else b }
  function Max(a: int, b: int): int { if a <= b then b else a }

  /** Python's `s[:n]`, including the meaning of a negative `n`
      (all but the last `-n` elements). */
  function PyTake<T>(s: seq<T>, n: int): (r: seq<T>)
    ensures r <= s
    ensures n >= 0 ==> |r| == Min(n, |s|)
    ensures n < 0 ==> |r| == Max(0, |s| + n)
  {
    if n >= 0 then (if n <= |s| then s[..n] else s)
    else if -n <= |s| then s[..|s| + n]
    else []
  }

  /** A Python slice bound: a negative index counts from the end, and the
      result is clamped to `0 .. n`. */
  function PyIndex(i: int, n: nat): (k: nat)
    ensures k <= n
    ensures 0 <= i <= n ==> k == i
  {
    if i < 0 then Max(0, n + i) else Min(i, n)
  }

  /** Python's `s[a:b]`. */
  function PySlice<T>(s: seq<T>, a: int, b: int): (r: seq<T>)
    ensures |r| <= |s|
    ensures 0 <= a <= b <= |s| ==> r == s[a..b]
  {
    var i, j := PyIndex(a, |s|), PyIndex(b, |s|);
    if i < j then s[i..j] else []
  }

  /** `s[:n]` is the slice from the start. */
  lemma PyTakeIsSlice<T>(s: seq<T>, n: int)
    ensures PyTake(s, n) == PySlice(s, 0, n)
  {
  }
}

=== FILE: wrappers.dfy ===
/** Failure-carrying values used across the model.
    `Option` stands for a Python value that may be absent (`None`), and
    for a computation that may raise: `None` then means "an exception
    escaped here". */
module Wrappers {

  datatype Option<+T> = None | Some(value: T) {

    /** The value, or `default` when absent (Python's `x if x else d`). */
    function GetOr(default: T): T {
      match this
      case Some(v) => v
      case None => default
    }
  }
}

=== FILE: writing_style.dfy ===
/** The dictionary-driven parts of the academic writing-style analyser:
    conciseness hints, academic vocabulary, synonyms, grammar-issue shaping
    and the passive-voice filter. What the analyser gets from NLTK
    (sentences, word tokens, WordNet lemma names) and from LanguageTool
    (the matches) enters as parameters. */
module WritingStyle {
  import opened Wrappers
  import opened Strings

  /* ---------------------------------------------------------------- */
  /* Conciseness                                                       */
  /* ---------------------------------------------------------------- */

  /** The wordy phrases and their replacements, in dictionary order. */
  const WordyPhrases: seq<(string, string)> := [
    ("due to the fact that", "because"),
    ("in the event that", "if"),
    ("in order to", "to"),
    ("at this point in time", "now")
  ]

  /** `Replace "<phrase>" with "<replacement>"`. */
  function Hint(pair: (string, string)): (h: string)
    ensures |h| == |pair.0| + |pair.1| + 18
  {
    "Replace \"" + pair.0 + "\" with \"" + pair.1 + "\""
  }

  /** How a hint reads: the phrase sits between the 9-character opening
      and the 8-character middle, the replacement between that and the
      closing quote. */
  lemma HintReads(pair: (string, string))
    ensures var h := Hint(pair);
      && h[..9] == "Replace \""
      && h[9..9 + |pair.0|] == pair.0
      && h[9 + |pair.0|..17 + |pair.0|] == "\" with \""
      && h[17 + |pair.0|..|h| - 1] == pair.1
      && h[|h| - 1] == '"'
  {
  }

  function Hints(pairs: seq<(string, string)>): (hs: seq<string>)
    ensures |hs| == |pairs| && forall i :: 0 <= i < |pairs| ==> hs[i] == Hint(pairs[i])
  {
    seq(|pairs|, i requires 0 <= i < |pairs| => Hint(pairs[i]))
  }

  /** The hints of the pairs whose phrase occurs in `text` (case-sensitive
      substring), in the pairs' order. */
  function HintsFor(pairs: seq<(string, string)>, text: string): (r: seq<string>)
    ensures IsSubsequence(r, Hints(pairs))
    decreases |pairs|
  {
    if |pairs| == 0 then []
    else
      var rest := HintsFor(pairs[1..], text);
      assert Hints(pairs)[1..] == Hints(pairs[1..]);
      SubsequenceSkip(rest, Hints(pairs));
      if Contains(text, pairs[0].0) then [Hint(pairs[0])] + rest else rest
  }

  /** `suggest_conciseness`. */
  function SuggestConciseness(text: string): (r: seq<string>)
    ensures IsSubsequence(r, Hints(WordyPhrases))
    ensures |r| <= 4
  {
    var r := HintsFor(WordyPhrases, text);
    SubsequenceLength(r, Hints(WordyPhrases));
    r
  }

  /** With distinct hints, a pair's hint is in the result exactly when
      its phrase occurs in the text. */
  lemma {:induction false} HintsForMembership(pairs: seq<(string, string)>, text: string, i: int)
    requires NoDuplicates(Hints(pairs)) && 0 <= i < |pairs|
    ensures Hint(pairs[i]) in HintsFor(pairs, text) <==> Contains(text, pairs[i].0)
    decreases |pairs|
  {
    var rest := HintsFor(pairs[1..], text);
    SubsequenceMembers(rest, Hints(pairs[1..]));
    assert Hints(pairs)[1..] == Hints(pairs[1..]);
    if i == 0 {
      assert Hint(pairs[0]) !in Hints(pairs[1..]) by {
        forall j | 0 <= j < |pairs| - 1 ensures Hints(pairs[1..])[j] != Hint(pairs[0]) {
          assert Hints(pairs)[j + 1] != Hints(pairs)[0];
        }
      }
    } else {
      assert NoDuplicates(Hints(pairs[1..])) by {
        forall j, k | 0 <= j < k < |pairs| - 1 ensures Hints(pairs[1..])[j] != Hints(pairs[1..])[k] {
          assert Hints(pairs)[j + 1] != Hints(pairs)[k + 1];
        }
      }
      HintsForMembership(pairs[1..], text, i - 1);
      assert Hints(pairs)[i] != Hints(pairs)[0];
      assert pairs[1..][i - 1] == pairs[i];
    }
  }

  /** The four hints differ (their lengths do). */
  lemma WordyHintsDistinct()
    ensures NoDuplicates(Hints(WordyPhrases))
  {
    var hs := Hints(WordyPhrases);
    assert |hs[0]| == 45 && |hs[1]| == 37 && |hs[2]| == 31 && |hs[3]| == 42;
  }

  /** One hint per wordy phrase that occurs in the text, and only those:
      the hint of phrase `i` is present exactly when the phrase is. */
  lemma ConcisenessSpec(text: string, i: int)
    requires 0 <= i < 4
    ensures Hint(WordyPhrases[i]) in SuggestConciseness(text) <==> Contains(text, WordyPhrases[i].0)
  {
    WordyHintsDistinct();
    HintsForMembership(WordyPhrases, text, i);
  }

  lemma {:induction false} NoPhraseNoHints(pairs: seq<(string, string)>, text: string)
    requires forall i :: 0 <= i < |pairs| ==> !Contains(text, pairs[i].0)
    ensures HintsFor(pairs, text) == []
    decreases |pairs|
  {
    if |pairs| > 0 {
      NoPhraseNoHints(pairs[1..], text);
    }
  }

  /** Text with none of the wordy phrases gets no hint. */
  lemma NoWordyPhraseNoSuggestion(text: string)
    requires forall i :: 0 <= i < 4 ==> !Contains(text, WordyPhrases[i].0)
    ensures SuggestConciseness(text) == []
  {
    NoPhraseNoHints(WordyPhrases, text);
  }

  /* ---------------------------------------------------------------- */
  /* Academic vocabulary                                               */
  /* ---------------------------------------------------------------- */

  const AcademicSynonyms: map<string, seq<string>> := map[
    "show" := ["demonstrate", "indicate", "reveal", "establish"],
    "important" := ["significant", "crucial", "essential", "fundamental"],
    "big" := ["substantial", "considerable", "extensive", "significant"],
    "small" := ["minimal", "limited", "marginal", "negligible"],
    "use" := ["utilize", "employ", "implement", "apply"],
    "find" := ["observe", "determine", "identify", "ascertain"],
    "think" := ["hypothesize", "theorize", "postulate", "conjecture"],
    "look at" := ["examine", "investigate", "analyze", "evaluate"]
  ]

  /** Every list of the table has four words. */
  lemma SynonymListsHaveFour()
    ensures forall k :: k in AcademicSynonyms ==> |AcademicSynonyms[k]| == 4
  {
  }

  datatype VocabularyHint = VocabularyHint(word: string, suggestions: seq<string>)

  predicate IsKeyToken(t: string) { Lower(t) in AcademicSynonyms }

  /** `suggest_academic_vocabulary` over the word tokens of the text. */
  function SuggestVocabulary(tokens: seq<string>): (r: seq<VocabularyHint>)
    ensures |r| <= |tokens|
    ensures forall h :: h in r ==>
      Lower(h.word) in AcademicSynonyms && h.suggestions == AcademicSynonyms[Lower(h.word)]
    decreases |tokens|
  {
    if |tokens| == 0 then []
    else
      var rest := SuggestVocabulary(tokens[1..]);
      var t := tokens[0];
      if Lower(t) in AcademicSynonyms then [VocabularyHint(t, AcademicSynonyms[Lower(t)])] + rest else rest
  }

  /** One hint per token whose lower-case form is a key, in token order,
      keeping the token's own spelling. */
  lemma {:induction false} VocabularyIsFilter(tokens: seq<string>)
    ensures var keys := Filter(IsKeyToken, tokens);
      var r := SuggestVocabulary(tokens);
      |r| == |keys|
      && forall i :: 0 <= i < |keys| ==>
           && IsKeyToken(keys[i])
           && r[i] == VocabularyHint(keys[i], AcademicSynonyms[Lower(keys[i])])
    decreases |tokens|
  {
    if |tokens| > 0 {
      VocabularyIsFilter(tokens[1..]);
    }
  }

  /** The two-word key "look at" never matches a single token (tokens
      have no blank inside), so it only serves synonym look-ups. */
  lemma MultiWordKeyNeverMatchesToken(t: string)
    requires ' ' !in t
    ensures Lower(t) != "look at"
  {
    if |t| == 7 {
      assert t[4] in t;
      assert Lower(t)[4] != "look at"[4];
    }
  }

  /* ---------------------------------------------------------------- */
  /* Synonyms                                                          */
  /* ---------------------------------------------------------------- */

  predicate Acceptable(word: string, name: string) { name != word && '_' !in name }

  /** `_get_academic_synonyms`: the table's list for the lower-cased word,
      otherwise up to five distinct WordNet lemma names other than the word
      and without `_`. `lemmaNames` are the lemma names of the word's
      synsets, in WordNet's order. */
  function Synonyms(word: string, lemmaNames: seq<string>): (r: seq<string>)
    ensures Lower(word) !in AcademicSynonyms ==>
      && |r| == Min(5, |Candidates(Lower(word), lemmaNames)|)
      && NoDuplicates(r)
      && forall n :: n in r ==> n in lemmaNames && Acceptable(Lower(word), n)
  {
    var w := Lower(word);
    if w in AcademicSynonyms then AcademicSynonyms[w]
    else PyTake(Candidates(w, lemmaNames), 5)
  }

  /** The distinct lemma names that qualify as synonyms of `w`. */
  function Candidates(w: string, lemmaNames: seq<string>): (c: seq<string>)
    ensures NoDuplicates(c)
    ensures forall n :: n in c <==> n in lemmaNames && Acceptable(w, n)
  {
    FilterMembers(n => Acceptable(w, n), lemmaNames);
    Distinct(Filter(n => Acceptable(w, n), lemmaNames))
  }

  /** A key spelled in any case returns that key's four words. */
  lemma SynonymsIgnoreCase(word: string, lemmaNames: seq<string>)
    requires Lower(word) in AcademicSynonyms
    ensures Synonyms(word, lemmaNames) == AcademicSynonyms[Lower(word)]
    ensures |Synonyms(word, lemmaNames)| == 4
  {
    SynonymListsHaveFour();
  }

  /** Looking up the lower-cased word gives the same answer. */
  lemma SynonymsOfLowered(word: string, lemmaNames: seq<string>)
    ensures Synonyms(Lower(word), lemmaNames) == Synonyms(word, lemmaNames)
  {
    assert Lower(Lower(word)) == Lower(word);
  }

  /** When fewer than five names qualify, every qualifying name is kept. */
  lemma SynonymsKeepAllWhenFew(word: string, lemmaNames: seq<string>, n: string)
    requires Lower(word) !in AcademicSynonyms
    requires |Candidates(Lower(word), lemmaNames)| <= 5
    requires n in lemmaNames && Acceptable(Lower(word), n)
    ensures n in Synonyms(word, lemmaNames)
  {
  }

  /* ---------------------------------------------------------------- */
  /* Grammar                                                           */
  /* ---------------------------------------------------------------- */

  /** One LanguageTool match. */
  datatype GrammarMatch = GrammarMatch(
    message: string,
    context: string,
    offset: int,
    errorLength: int,
    category: string,
    replacements: seq<string>)

  /** The grammar tool: it could not be started, its check raised, or it
      returned its matches. */
  datatype GrammarTool = Unavailable | CheckFailed | Checked(matches: seq<GrammarMatch>)

  datatype Issue = Issue(
    message: string,
    context: string,
    offset: int,
    length: int,
    category: string,
    incorrect: string,
    suggestions: seq<string>)

  /** The issue of one match: the text it covers and the first three
      replacements (all of them when there are fewer). */
  function ToIssue(text: string, m: GrammarMatch): (i: Issue)
    ensures i.suggestions <= m.replacements && |i.suggestions| == Min(3, |m.replacements|)
    ensures i.context == m.context && i.category == m.category
    ensures i.incorrect == PySlice(text, m.offset, m.offset + m.errorLength)
    ensures i.message == m.message && i.offset == m.offset && i.length == m.errorLength
  {
    Issue(m.message, m.context, m.offset, m.errorLength, m.category,
          PySlice(text, m.offset, m.offset + m.errorLength),
          if |m.replacements| > 0 then PyTake(m.replacements, 3) else [])
  }

  /** `check_grammar`. */
  function CheckGrammar(text: string, tool: GrammarTool): (r: seq<Issue>)
    ensures tool.Checked? ==> |r| == |tool.matches|
    ensures !tool.Checked? ==> r == []
  {
    match tool
    case Checked(ms) => seq(|ms|, i requires 0 <= i < |ms| => ToIssue(text, ms[i]))
    case _ => []
  }

  /** One issue per match, in order; a match whose span lies inside the
      text reports exactly the characters of that span. */
  lemma GrammarIssuesFollowMatches(text: string, ms: seq<GrammarMatch>, i: int)
    requires 0 <= i < |ms|
    ensures var issue := CheckGrammar(text, Checked(ms))[i];
      && issue.message == ms[i].message
      && |issue.suggestions| <= 3
      && (0 <= ms[i].offset && 0 <= ms[i].errorLength && ms[i].offset + ms[i].errorLength <= |text| ==>
            issue.incorrect == text[ms[i].offset..ms[i].offset + ms[i].errorLength]
            && |issue.incorrect| == ms[i].errorLength)
  {
  }

  /* ---------------------------------------------------------------- */
  /* Passive voice                                                     */
  /* ---------------------------------------------------------------- */

  const Auxiliaries: seq<string> := ["is", "are", "was", "were", "be", "being", "been"]

  /** An ASCII approximation of `\w`: letters, digits and `_`. */
  predicate IsWordChar(c: char) { IsAlnumAscii(c) || c == '_' }

  /** `\b` before a word character at `i`. */
  predicate WordStartsAt(s: string, i: int) {
    0 <= i <= |s| && (i == 0 || !IsWordChar(s[i - 1]))
  }

  /** `\w+ed\b` from `a` to `b`. */
  predicate ParticipleSpan(s: string, a: int, b: int) {
    && 0 <= a && a + 3 <= b <= |s|
    && (forall k :: a <= k < b ==> IsWordChar(s[k]))
    && s[b - 2] == 'e' && s[b - 1] == 'd'
    && (b == |s| || !IsWordChar(s[b]))
  }

  /** The pattern at `i` with auxiliary `aux`, `sp` blanks, and the
      participle ending at `b`. */
  predicate PassiveWith(s: string, i: int, aux: string, sp: int, b: int) {
    && WordStartsAt(s, i)
    && sp >= 1 && i + |aux| + sp <= |s|
    && s[i..i + |aux|] == aux
    && (forall k :: i + |aux| <= k < i + |aux| + sp ==> IsSpace(s[k]))
    && ParticipleSpan(s, i + |aux| + sp, b)
  }

  /** `re.search(r'\b(is|are|was|were|be|being|been)\s+\w+ed\b', s)`. */
  predicate HasPassive(s: string) {
    exists i, j, sp, b | 0 <= i <= |s| && 0 <= j < |Auxiliaries| && 1 <= sp <= |s| && 0 <= b <= |s| ::
      PassiveWith(s, i, Auxiliaries[j], sp, b)
  }

  /** One match of the pattern puts its auxiliary and "ed" in the text. */
  lemma MatchHoldsEd(s: string, i: int, aux: string, sp: int, b: int)
    requires PassiveWith(s, i, aux, sp, b)
    ensures Contains(s, "ed") && Contains(s, aux)
  {
    assert s[b - 2..b] == [s[b - 2], s[b - 1]] == "ed";
    assert OccursAt("ed", s, b - 2);
    assert OccursAt(aux, s, i);
  }

  /** A flagged sentence holds one of the auxiliaries and the letters
      "ed"; a sentence lacking either is never flagged. */
  lemma PassiveNeedsEd(s: string)
    requires HasPassive(s)
    ensures Contains(s, "ed")
    ensures exists j :: 0 <= j < |Auxiliaries| && Contains(s, Auxiliaries[j])
  {
    var i, j, sp, b :| 0 <= i <= |s| && 0 <= j < |Auxiliaries| && 1 <= sp <= |s| && 0 <= b <= |s|
      && PassiveWith(s, i, Auxiliaries[j], sp, b);
    MatchHoldsEd(s, i, Auxiliaries[j], sp, b);
  }

  /** A word of three or more word characters ending in "ed", followed by
      a non-word character or the end, is a participle span. */
  lemma ParticipleAt(x: string, w: string, post: string)
    requires |w| >= 3 && (forall k :: 0 <= k < |w| ==> IsWordChar(w[k])) && w[|w| - 2..] == "ed"
    requires |post| == 0 || !IsWordChar(post[0])
    ensures ParticipleSpan(x + w + post, |x|, |x| + |w|)
  {
    var s := x + w + post;
    forall k | |x| <= k < |x| + |w| ensures IsWordChar(s[k]) {
      assert s[k] == w[k - |x|];
    }
    assert w[|w| - 2] == w[|w| - 2..][0] && w[|w| - 1] == w[|w| - 2..][1];
    assert s[|x| + |w| - 2] == w[|w| - 2] && s[|x| + |w| - 1] == w[|w| - 1];
    assert |x| + |w| < |s| ==> s[|x| + |w|] == post[0];
  }

  /** An auxiliary after a non-word character or at the start sits at a
      word start. */
  lemma AuxiliaryAt(pre: string, aux: string, blanks: string, rest: string)
    requires |pre| == 0 || !IsWordChar(pre[|pre| - 1])
    requires forall k :: 0 <= k < |blanks| ==> IsSpace(blanks[k])
    ensures var s := pre + aux + blanks + rest;
      && WordStartsAt(s, |pre|)
      && s[|pre|..|pre| + |aux|] == aux
      && forall k :: |pre| + |aux| <= k < |pre| + |aux| + |blanks| ==> IsSpace(s[k])
  {
    var s := pre + aux + blanks + rest;
    assert |pre| > 0 ==> s[|pre| - 1] == pre[|pre| - 1];
    forall k | |pre| + |aux| <= k < |pre| + |aux| + |blanks| ensures IsSpace(s[k]) {
      assert s[k] == blanks[k - |pre| - |aux|];
    }
  }

  /** An auxiliary at a word start, whitespace, then a word of three or
      more word characters ending in "ed" at a word end is flagged, whatever
      that word is. */
  lemma PassivePhraseFlagged(pre: string, j: int, blanks: string, w: string, post: string)
    requires 0 <= j < |Auxiliaries|
    requires |pre| == 0 || !IsWordChar(pre[|pre| - 1])
    requires |blanks| >= 1 && forall k :: 0 <= k < |blanks| ==> IsSpace(blanks[k])
    requires |w| >= 3 && (forall k :: 0 <= k < |w| ==> IsWordChar(w[k])) && w[|w| - 2..] == "ed"
    requires |post| == 0 || !IsWordChar(post[0])
    ensures HasPassive(pre + Auxiliaries[j] + blanks + w + post)
  {
    var aux := Auxiliaries[j];
    var s := pre + aux + blanks + w + post;
    AuxiliaryAt(pre, aux, blanks, w + post);
    ParticipleAt(pre + aux + blanks, w, post);
    assert s == pre + aux + blanks + (w + post);
    assert PassiveWith(s, |pre|, aux, |blanks|, |pre| + |aux| + |blanks| + |w|);
  }

  /** The heuristic is lexical: an adjective that ends in "ed" after an
      auxiliary is flagged as passive voice too. */
  lemma AdjectiveFlagged()
    ensures HasPassive("It was red")
  {
    assert Auxiliaries[2] == "was";
    PassivePhraseFlagged("It ", 2, " ", "red", "");
    assert "It " + "was" + " " + "red" + "" == "It was red";
  }

  /** `detect_passive_voice` over the sentences of the text. */
  function DetectPassiveVoice(sentences: seq<string>): (r: seq<string>)
    ensures forall x :: x in r ==> HasPassive(x)
  {
    Filter(HasPassive, sentences)
  }

  /** The flagged sentences are a subsequence of the sentences, and a
      sentence is flagged exactly when the pattern occurs in it. */
  lemma PassiveIsSubsequence(sentences: seq<string>)
    ensures IsSubsequence(DetectPassiveVoice(sentences), sentences)
    ensures forall x :: x in DetectPassiveVoice(sentences) <==> x in sentences && HasPassive(x)
  {
    FilterIsSubsequence(HasPassive, sentences);
    forall x | x in sentences && HasPassive(x) ensures x in DetectPassiveVoice(sentences) {
      FilterKeeps(HasPassive, sentences, x);
    }
  }
}
